=== FILE: README.md ===
# Method-call expressions: validation, lookup by name, write-back and display

This project is a Dafny model of the method-call node of System.Linq.Expressions as its
conformance tests (`CallTests.cs`) pin it down. It covers four rule sets:

- **Explicit construction** (`Expression.Call(instance, method, args)` in all its overloads).
  The method is checked first: it must be present and closed. Then the receiver: a static
  method must not get one, and an instance method needs one of a compatible type. Then the
  argument count. Then each argument in order: present, readable, then assignable. The first
  failing check decides the exception kind and the parameter name it reports: `method`,
  `instance` or `argI`.
- **Construction by name** (`Expression.Call(instance|type, name, typeArgs, args)`).
  - Null references are reported first: `instance`, `type` or `methodName`.
  - The candidates are the methods of the target type with that name and the requested
    kind (instance or static), in declaration order.
  - Type arguments are applied to each candidate:
    - without type arguments, only non-generic methods survive;
    - with type arguments of the wrong arity, the candidate is skipped;
    - a null type argument throws ArgumentNullException;
    - a violated constraint throws ArgumentException;
    - neither of those two exceptions names a parameter.
  - Argument shapes are then matched. A null argument in a list of the right length throws
    ArgumentNullException naming `arguments`.
  - No match, or a second match, is "not found" (InvalidOperationException).
  - The unique match is then validated like an explicit call.
- **Addressability and write-back.** A compiled lambda whose body calls the mutating
  `Mutable.Foo` (`return x++`) is invoked repeatedly over a heap that persists between
  invocations.
  - An array element (either factory, any rank), a writable field or an unboxed value is
    storage, so the counter advances: 0, 1, 2, ...
  - A property, an indexer, a readonly field or a literal is a temporary copy, so every
    call reports 0.
  - A property or indexer passed by `ref` to `Methods.ByRef` is written back through its
    setter, so the struct parameter reads 42 after starting at 41.
  - Parameters are locals of one invocation.
- **Display.** A static call prints the bare method name, without the declaring type. An
  instance call prints the receiver, a dot, then the static form. An extension method
  prints its first argument as the receiver.

Modules:

| Module | What it holds |
|---|---|
| `Results` | Option and Result |
| `Text` | decimal text and joining |
| `Types` | the type universe, assignability, constraints, substitution |
| `Values` | runtime values, the heap, 32-bit increment |
| `Expressions` | the operand shapes |
| `Descriptors` | method descriptors and call nodes |
| `Errors` | exception kinds and reported parameter names |
| `Validator` | explicit construction |
| `Resolver` | construction by name |
| `Store` | evaluation, storage locations, reads and writes |
| `Executor` | write-back plans, execution, lambdas, repeated invocation |
| `Display` | ToString |
| `Fixtures` | the test fixtures as descriptors |
| `ValidationCases`, `ResolutionCases`, `WriteBackCases`, `DisplayCases` | the tests' assertions, proved |

Errors are the .NET exception kinds the tests assert, each with the parameter name it
reports. A violated constraint is an ArgumentException that names no parameter
(`CallTests.cs:449-454`). Type arguments given for a non-generic method make it "not found"
(`CallTests.cs:456-461`). Type arguments are never inferred: a generic method called without
them is never a candidate (`CallTests.cs:433-447`).

## Model

| member | source | states |
|---|---|---|
| Values.Increment | src/libraries/System.Linq.Expressions/tests/Call/CallTests.cs:29-32 | `x++` and `++x` on an int: the result stays in 32-bit range, is `x + 1` below the maximum and wraps to the minimum at the maximum |
| Errors.SlotName | src/libraries/System.Linq.Expressions/tests/Call/CallTests.cs:355-359 | an exception carries a parameter name exactly when its failure position has one (type-argument binding and "not found" have none); argument i reports `arg` followed by the decimal digits of i |
| Errors.SlotNameInjective | src/libraries/System.Linq.Expressions/tests/Call/CallTests.cs:355-359 | two different failure positions never report the same parameter name, so checking the name identifies the check that failed |
| Text.ParseNatToString | src/libraries/System.Linq.Expressions/tests/Call/CallTests.cs:303-353 | the position written in an `argI` name reads back as I |
| Text.JoinSnoc | src/libraries/System.Linq.Expressions/tests/Call/CallTests.cs:484-514 | in a displayed argument list, `, ` stands between consecutive arguments only: adding an argument to a non-empty list appends the separator and that argument's text, with no separator before the first or after the last |
| Validator.FindFault | src/libraries/System.Linq.Expressions/tests/Call/CallTests.cs:294-353 | returns the first argument position that fails (null, unreadable, unassignable) with its kind, or none exactly when every argument passes |
| Validator.Validate | src/libraries/System.Linq.Expressions/tests/Call/CallTests.cs:237-405 | a null method, then an open method, then a receiver fault (static with instance blames `instance`, instance without receiver blames `method`), then a wrong count (`method`), then the first bad argument (`argI`); succeeds exactly when every check passes, with the receiver and arguments carried over unchanged |
| Resolver.Candidates | src/libraries/System.Linq.Expressions/tests/Call/CallTests.cs:526-553 | a method is a candidate exactly when it belongs to the target type, has the name and is of the requested kind |
| Resolver.BindTypeArguments | src/libraries/System.Linq.Expressions/tests/Call/CallTests.cs:449-468 | ArgumentNullException without a name exactly when a type argument is null; ArgumentException without a name exactly when all are given and one violates its constraint; otherwise a method with no type parameters of its own whose parameters are substituted |
| Resolver.ApplyTypeArguments | src/libraries/System.Linq.Expressions/tests/Call/CallTests.cs:433-461 | without type arguments exactly the non-generic candidates survive, unchanged; a type-argument count that differs from the method's arity skips the candidate; at the right arity the candidate survives bound exactly when binding succeeds, and otherwise raises binding's exception |
| Resolver.IsCompatible | src/libraries/System.Linq.Expressions/tests/Call/CallTests.cs:470-482 | a different argument count is no match; with the right count, a match exactly when every argument is present and assignable, and a failure only as ArgumentNullException(`arguments`) for a null argument preceded by fitting ones |
| Resolver.Resolve | src/libraries/System.Linq.Expressions/tests/Call/CallTests.cs:407-482 | null instance, null type and null name are reported as such; no candidate is "not found"; a resolved method has the requested name, type and kind, has no type parameters of its own and fits the arguments |
| Resolver.ScanFindsUniqueMatch | src/libraries/System.Linq.Expressions/tests/Call/CallTests.cs:427-482 | the candidate scan returns a method exactly when no candidate raises and exactly one matches, binding to that method |
| Resolver.Judge | src/libraries/System.Linq.Expressions/tests/Call/CallTests.cs:433-482 | a candidate matches only as a binding of the same type, name and kind with no type parameters of its own that fits the arguments, and conversely a non-generic candidate called without type arguments, or a generic one whose binding succeeds, that fits every argument is a match; a generic candidate without type arguments, or with the wrong number, is excluded; a binding failure is raised; a candidate raises only ArgumentNullException or ArgumentException |
| Resolver.Scan | src/libraries/System.Linq.Expressions/tests/Call/CallTests.cs:427-482 | a method found is the one already held or the binding of a matching verdict, a held match survives only as itself, nothing found means every candidate was excluded, and a failure is a candidate's exception or the ambiguity of a second match |
| Resolver.ScanFindsNothing | src/libraries/System.Linq.Expressions/tests/Call/CallTests.cs:427-447 | the candidate scan finds nothing exactly when no candidate raises or matches |
| Resolver.ScanAfterMatch | src/libraries/System.Linq.Expressions/tests/Call/CallTests.cs:427-482 | after a first match, the scan keeps it exactly when the remaining candidates neither raise nor match; a second match ends it |
| Resolver.ScanFirstRaise | src/libraries/System.Linq.Expressions/tests/Call/CallTests.cs:449-468 | an exception from a candidate propagates when every earlier candidate was skipped |
| Resolver.ResolveSucceedsIff | src/libraries/System.Linq.Expressions/tests/Call/CallTests.cs:407-482 | resolution yields m exactly when both references are given, no candidate raises and m is the unique match |
| Resolver.ResolveNotFound | src/libraries/System.Linq.Expressions/tests/Call/CallTests.cs:427-482 | when nothing raises and nothing matches, the result is InvalidOperationException |
| Resolver.ResolveBindingFailure | src/libraries/System.Linq.Expressions/tests/Call/CallTests.cs:449-468 | a binding failure of a candidate is the result, whatever the arguments, when the earlier candidates were skipped |
| Resolver.ResolveSingleFit | src/libraries/System.Linq.Expressions/tests/Call/CallTests.cs:470-482 | the only candidate of a name and kind, given no type arguments, is found whenever it has no type parameters and fits the arguments |
| Resolver.BuildCallByName | src/libraries/System.Linq.Expressions/tests/Call/CallTests.cs:407-482 | a built call carries the resolved method, the instance as receiver (none for a type) and one argument per given argument |
| Resolver.ResolvedCallFailsOnlyOnUnreadableArgument | src/libraries/System.Linq.Expressions/tests/Call/CallTests.cs:470-482 | after a successful resolution, validation can only object to an unreadable argument |
| Resolver.MatchComesFromCandidate | src/libraries/System.Linq.Expressions/tests/Call/CallTests.cs:526-553 | a matching binding has the declaring type, name and kind of a candidate, has no type parameters of its own and fits the arguments |
| Types.SubstCloses | src/libraries/System.Linq.Expressions/tests/Call/CallTests.cs:545-549 | substituting closed type arguments for every type parameter a parameter mentions leaves no type parameter |
| Resolver.BoundParametersClosed | src/libraries/System.Linq.Expressions/tests/Call/CallTests.cs:545-549 | binding closed type arguments to a well-formed generic method leaves parameter types that mention no type parameter |
| Store.Write | src/libraries/System.Linq.Expressions/tests/Call/CallTests.cs:146-158 | reading a location after writing it gives the written value; every other location keeps its value; heap writes keep the parameters and parameter writes keep the heap |
| Store.WriteTwice | src/libraries/System.Linq.Expressions/tests/Call/CallTests.cs:56-128 | the second of two writes to the same storage wins |
| Store.WriteCurrent | src/libraries/System.Linq.Expressions/tests/Call/CallTests.cs:56-128 | writing back the value a location holds changes nothing |
| Store.LocateAgreesWithEval | src/libraries/System.Linq.Expressions/tests/Call/CallTests.cs:54-199 | the addressability analysis fails exactly with the exception evaluation raises, and an addressable operand that evaluates always has storage |
| Store.Locate | src/libraries/System.Linq.Expressions/tests/Call/CallTests.cs:54-199 | an operand yields a temporary exactly when it is not a parameter, writable field, array element or unboxed value; storage it finds is a parameter or heap storage that holds the operand's value |
| Store.Eval | src/libraries/System.Linq.Expressions/tests/Call/CallTests.cs:294-299 | a getter-less property never yields a value, so what the validator calls unreadable cannot be read; a parameter evaluates exactly when it is bound (what a location holds: Store.Locate) |
| Store.Set | src/libraries/System.Linq.Expressions/tests/Call/CallTests.cs:17-27 | a setter allocates nothing; the getter-less setter does nothing; the struct setter stores the new counter into the owner's storage; a class property's setter writes its backing field of the owning object, and a List indexer's setter writes the element at the index, failing with an out-of-range error exactly when that element cannot be read |
| Executor.Plan | src/libraries/System.Linq.Expressions/tests/Call/CallTests.cs:202-226 | a by-ref property or indexer is written back through its setter, on the owner's storage and value and the index values found before the call (a missing owner gives no storage); any other operand is written back exactly when it is addressable, into the storage that holds its value |
| Executor.PlanAll | src/libraries/System.Linq.Expressions/tests/Call/CallTests.cs:49-52 | a by-ref position gets exactly the plan of its argument and every other position gets none; planning fails exactly when some by-ref argument cannot be planned |
| Executor.WriteBackAll | src/libraries/System.Linq.Expressions/tests/Call/CallTests.cs:202-226 | write-back allocates nothing, and a call with no write-backs leaves the state as it was (where each write-back lands: Executor.WriteBackLands) |
| Executor.Step | src/libraries/System.Linq.Expressions/tests/Call/CallTests.cs:17-27 | one write-back stores the argument's final value (or the struct holding it, through Mutable's setter) into the storage it names (a local, a field, an array or List element, or a struct owner's storage) when that storage exists, and changes no other location |
| Executor.WriteBackFrame | src/libraries/System.Linq.Expressions/tests/Call/CallTests.cs:202-226 | storage no write-back names keeps its contents |
| Executor.WriteBackLands | src/libraries/System.Linq.Expressions/tests/Call/CallTests.cs:202-226 | the write-back of argument i lands: its storage ends up holding what it stores unless a later write-back names the same storage |
| Executor.Execute | src/libraries/System.Linq.Expressions/tests/Call/CallTests.cs:54-226 | a call allocates nothing; it returns what the callee's body returns from the values before the call; a call with no receiver and no by-ref parameter changes no storage |
| Executor.ExecuteWritesBack | src/libraries/System.Linq.Expressions/tests/Call/CallTests.cs:200-226 | after a call, the storage a by-ref argument's write-back names (the argument's own storage; the backing field of a class property; the List element behind an indexer; or, for a struct's property or indexer, the struct owner's storage) holds what the callee left in that argument, unless a later by-ref argument names the same storage |
| Executor.Apply | src/libraries/System.Linq.Expressions/tests/Call/CallTests.cs:29-52 | `Foo` succeeds exactly on a Mutable receiver, returns its count and leaves the count one higher with wrap-around; `ByRef` raises its first int argument by one and keeps the rest; `GetType` throws NullReferenceException on null and reports the dynamic type; only `Foo` changes its receiver and only `ByRef` its arguments |
| Executor.Repeat | src/libraries/System.Linq.Expressions/tests/Call/CallTests.cs:54-188 | `count` invocations give `count` results, the first being the first invocation's (their values: Executor.RepeatPersistent and Executor.RepeatCopied) |
| Executor.Invoke | src/libraries/System.Linq.Expressions/tests/Call/CallTests.cs:54-226 | an invocation allocates nothing on the shared heap |
| Executor.SuccessorsCount | src/libraries/System.Linq.Expressions/tests/Call/CallTests.cs:56-69 | without overflow, the i-th of the counted results is the start value plus i |
| Executor.PersistentReceiverStep | src/libraries/System.Linq.Expressions/tests/Call/CallTests.cs:29-32 | with a receiver that is storage holding x, one call returns x and leaves the storage holding x + 1 |
| Executor.CopiedReceiverStep | src/libraries/System.Linq.Expressions/tests/Call/CallTests.cs:132-188 | with a receiver that is a temporary copy of x, one call returns x and leaves the heap unchanged |
| Executor.RepeatPersistent | src/libraries/System.Linq.Expressions/tests/Call/CallTests.cs:56-158 | invocations on a stable storage receiver report x, x + 1, x + 2, ... with 32-bit wrap-around |
| Executor.RepeatStable | src/libraries/System.Linq.Expressions/tests/Call/CallTests.cs:132-188 | an invocation that leaves the heap as it found it reports the same value every time |
| Executor.RepeatCopied | src/libraries/System.Linq.Expressions/tests/Call/CallTests.cs:132-188 | invocations on a copied receiver all report the original x |
| Display.Render | src/libraries/System.Linq.Expressions/tests/Call/CallTests.cs:484-514 | a static call prints the bare method name, then its arguments' texts separated by `, ` in parentheses; every display ends with `)` and is longer than the method name |
| Display.InstanceRendersReceiverThenStaticForm | src/libraries/System.Linq.Expressions/tests/Call/CallTests.cs:496-503 | an instance call prints its receiver, a dot, then what the same call without a receiver prints |
| Display.ExtensionRendersAsInstance | src/libraries/System.Linq.Expressions/tests/Call/CallTests.cs:505-513 | an extension call prints as the instance call of the same method on its first argument with the remaining arguments |
| Display.RenderIgnoresDeclaringType | src/libraries/System.Linq.Expressions/tests/Call/CallTests.cs:486-490 | the declaring type never shows in the display |
| Fixtures.NumberedMethod | src/libraries/System.Linq.Expressions/tests/Call/CallTests.cs:532-537 | Method0 ... Method5 take 0 ... 5 parameters |
| ValidationCases.InvalidMethodBlamesMethod | src/libraries/System.Linq.Expressions/tests/Call/CallTests.cs:237-261 | a null method is ArgumentNullException and an open or generic method is ArgumentException, both naming `method`, whatever the receiver and arguments |
| ValidationCases.MissingInstanceBlamesMethod | src/libraries/System.Linq.Expressions/tests/Call/CallTests.cs:263-280 | an instance method without receiver is ArgumentException(`method`) for every argument list |
| ValidationCases.StaticWithInstanceBlamesInstance | src/libraries/System.Linq.Expressions/tests/Call/CallTests.cs:282-291 | a static method with a receiver is ArgumentException(`instance`) for every argument list, including wrong counts |
| ValidationCases.InvalidArgumentBlamesItsPosition | src/libraries/System.Linq.Expressions/tests/Call/CallTests.cs:294-353 | a null, getter-less or string argument at position i of an otherwise valid call fails with the expected kind naming `argI` |
| ValidationCases.ArgumentSlotNames | src/libraries/System.Linq.Expressions/tests/Call/CallTests.cs:303-353 | positions 0 to 4 report `arg0` to `arg4` |
| ValidationCases.WrongCountBlamesMethod | src/libraries/System.Linq.Expressions/tests/Call/CallTests.cs:361-405 | every count other than the parameter count is ArgumentException(`method`), although each argument is also invalid |
| ValidationCases.ValidCallAccepted | src/libraries/System.Linq.Expressions/tests/Call/CallTests.cs:228-235 | the right count of valid constants is accepted |
| ResolutionCases.SingleCandidate | src/libraries/System.Linq.Expressions/tests/Call/CallTests.cs:526-553 | a name and kind carried by exactly one method has that method as its only candidate |
| ResolutionCases.NullReferencesBlameTheirParameter | src/libraries/System.Linq.Expressions/tests/Call/CallTests.cs:407-425 | a null instance, type or name is ArgumentNullException naming `instance`, `type` or `methodName` |
| ResolutionCases.UnknownNameNotFound | src/libraries/System.Linq.Expressions/tests/Call/CallTests.cs:426-431 | an unknown name is InvalidOperationException |
| ResolutionCases.GenericMethodNeedsItsTypeArguments | src/libraries/System.Linq.Expressions/tests/Call/CallTests.cs:433-447 | a generic method with null, empty or two type arguments is not found |
| ResolutionCases.ConstraintViolationRaised | src/libraries/System.Linq.Expressions/tests/Call/CallTests.cs:448-454 | `object` for a struct-constrained parameter is ArgumentException naming nothing, although no argument is given |
| ResolutionCases.TypeArgumentsOnNonGenericNotFound | src/libraries/System.Linq.Expressions/tests/Call/CallTests.cs:455-461 | a non-generic method given a type argument is not found |
| ResolutionCases.NullTypeArgumentRaised | src/libraries/System.Linq.Expressions/tests/Call/CallTests.cs:462-468 | a null type argument is ArgumentNullException naming nothing, although no argument is given |
| ResolutionCases.NullArgument | src/libraries/System.Linq.Expressions/tests/Call/CallTests.cs:469-482 | a null argument is ArgumentNullException(`arguments`) with the right count and "not found" with the wrong count |
| ResolutionCases.FittingMethodFound | src/libraries/System.Linq.Expressions/tests/Call/CallTests.cs:470-482 | `InstanceMethod1` on an instance and `StaticMethod1` on the type, called with an int and an empty type-argument list, are found |
| ResolutionCases.BoundGenericMethodFound | src/libraries/System.Linq.Expressions/tests/Call/CallTests.cs:433-447 | `GenericInstanceMethod` and `GenericStaticMethod` with the type argument int and an int argument are found, bound to int with the parameter `t1` closed to int |
| WriteBackCases.ArrayElementReceiverPersists | src/libraries/System.Linq.Expressions/tests/Call/CallTests.cs:70-128 | through ArrayIndex or ArrayAccess, at any rank, the element's counter advances on every invocation |
| WriteBackCases.FieldReceiverPersists | src/libraries/System.Linq.Expressions/tests/Call/CallTests.cs:144-158 | through a writable field the counter advances |
| WriteBackCases.UnboxedReceiverPersists | src/libraries/System.Linq.Expressions/tests/Call/CallTests.cs:54-69 | through Unbox the boxed counter advances |
| WriteBackCases.PropertyReceiverIsCopied | src/libraries/System.Linq.Expressions/tests/Call/CallTests.cs:159-172 | through a property every invocation reports the field's original value |
| WriteBackCases.ListIndexerReceiverIsCopied | src/libraries/System.Linq.Expressions/tests/Call/CallTests.cs:130-143 | through a List indexer every invocation reports the element's original value |
| WriteBackCases.ReadonlyFieldReceiverIsCopied | src/libraries/System.Linq.Expressions/tests/Call/CallTests.cs:173-187 | through a readonly field every invocation reports its original value |
| WriteBackCases.ArrayCases | src/libraries/System.Linq.Expressions/tests/Call/CallTests.cs:70-128 | the four array tests report 0, 1, 2 |
| WriteBackCases.UnboxCase | src/libraries/System.Linq.Expressions/tests/Call/CallTests.cs:54-69 | the unbox test reports 0, 1, 2, 3 |
| WriteBackCases.FieldCase | src/libraries/System.Linq.Expressions/tests/Call/CallTests.cs:144-158 | the field test reports 0, 1, 2 |
| WriteBackCases.PropertyCase | src/libraries/System.Linq.Expressions/tests/Call/CallTests.cs:159-172 | the property test reports 0, 0 |
| WriteBackCases.ReadonlyFieldCase | src/libraries/System.Linq.Expressions/tests/Call/CallTests.cs:173-187 | the readonly field test reports 0, 0, 0 |
| WriteBackCases.ListCase | src/libraries/System.Linq.Expressions/tests/Call/CallTests.cs:130-143 | the List indexer test reports 0, 0 |
| WriteBackCases.FooCallIsValid | src/libraries/System.Linq.Expressions/tests/Call/CallTests.cs:54-188 | `Foo` on any Mutable-typed receiver passes validation as the call node the lambdas run |
| WriteBackCases.ConstFieldCase | src/libraries/System.Linq.Expressions/tests/Call/CallTests.cs:188-199 | `GetType` on the literal `Wrapper<Mutable>.Zero` validates and returns the type int, leaving the heap alone |
| WriteBackCases.ByRefWritesBackThroughSetter | src/libraries/System.Linq.Expressions/tests/Call/CallTests.cs:200-226 | `ByRef(p.X)` and `ByRef(p[0])` validate, and the block then reads x + 1 from the struct parameter |
| WriteBackCases.ByRefCase | src/libraries/System.Linq.Expressions/tests/Call/CallTests.cs:200-226 | from 41 the block returns 42 |
| WriteBackCases.ByRefArrayElementWritesBack | src/libraries/System.Linq.Expressions/tests/Call/CallTests.cs:200-226 | `ByRef(ref a[0])` validates, and after the call the array element holds x + 1 with wrap-around |
| WriteBackCases.ByRefListElementWritesBack | src/libraries/System.Linq.Expressions/tests/Call/CallTests.cs:200-226 | `ByRef` given a List<int>'s indexer `list[0]` writes the incremented value back through the indexer's setter: afterwards the list's element 0 holds x + 1 with wrap-around |
| WriteBackCases.PropertyCopiedAsReceiverWrittenBackAsArgument | src/libraries/System.Linq.Expressions/tests/Call/CallTests.cs:159-226 | a property is a temporary as receiver and is written back through its setter as a by-ref argument |
| DisplayCases.AcceptedAsWritten | src/libraries/System.Linq.Expressions/tests/Call/CallTests.cs:484-514 | a call whose types fit validates to a node with exactly its receiver and arguments |
| DisplayCases.StaticCalls | src/libraries/System.Linq.Expressions/tests/Call/CallTests.cs:486-494 | `S0()`, `S1(x)`, `S2(x, y)` |
| DisplayCases.InstanceCalls | src/libraries/System.Linq.Expressions/tests/Call/CallTests.cs:496-503 | `o.I0()`, `o.I1(x)`, `o.I2(x, y)` |
| DisplayCases.ExtensionCalls | src/libraries/System.Linq.Expressions/tests/Call/CallTests.cs:505-513 | `x.E0()`, `x.E1(y)`, `x.E2(y, z)` |

## Left out

- The mixed ahead-of-time/interpreter bridge (`src/mono/mono/tests/llvmonly-mixed/tests.cs`): runtime plumbing for interface dispatch and reflection invoke, with no rule set of the call node in it.
- The compile-versus-interpret switch (`useInterpreter`): the tests require both strategies to agree, so one execution semantics is modelled.
- Reflection is replaced by a small type universe and a list of method descriptors; the message text of exceptions and the xUnit harness are not modelled.
- Generic type inference: a generic method without explicit type arguments is never a candidate. No test exercises a successful inference.
- Name lookup is exact. The case-variant fixtures `staticSameName`/`StaticSameName`/`instanceSameName` are in the descriptor list, but case-insensitive lookup (used by tests outside this file) is not modelled.
- Inheritance is reduced to "every type converts to object"; assignability is identity or reference widening to object. Conversions, boxing of arguments and user-defined types beyond the fixtures are not modelled.
- Validator.Validate: the receiver is not checked for readability; only arguments are. No test passes an unreadable receiver.
- Executor.Execute: static mutable fields are not modelled. A receiver is written back to where it was read from, and no test stores a struct in a static field.
- Display.Render: operands other than parameters (constants, fields, indexers, unboxing) print in a plain form; the tests pin only parameter names.
- Store.FieldOf: a field is read only from a class instance, so a field chain through a struct-typed owner (`s.Inner.Field` on a struct `s`) cannot be written; no test uses one.
- Read-only properties (a getter without a setter) passed by `ref` are not modelled; no fixture has one.
- Thread safety of compiled delegates is not modelled.

=== FILE: descriptors.dfy ===
/** Method descriptors (the reflection metadata a call binds to) and the call node
    the validator produces. */
module Descriptors {
  import opened Results
  import opened Types
  import opened Expressions

  /** A formal parameter; for a `ref` parameter `ty` is the referenced type. */
  datatype Parameter = Parameter(name: string, ty: Ty, byRef: bool)

  /** What a method body does to its receiver and arguments. */
  datatype Impl =
    | NoEffect                   // the empty bodies of the validator and resolver fixtures
    | PostIncrementReceiver      // Mutable.Foo: return x++
    | PreIncrementFirstArgument  // Methods.ByRef(ref int x): ++x
    | ReportReceiverType         // object.GetType()

  datatype Method = Method(
    declaring: Ty,
    declaringIsOpen: bool,       // declared on an open generic type such as GenericClass<>
    name: string,
    isStatic: bool,
    isExtension: bool,           // carries the extension attribute (`this` first parameter)
    typeParams: seq<Constraint>, // non-empty exactly for a generic method definition
    typeArgs: seq<Ty>,           // the bound type arguments of a constructed generic method
    params: seq<Parameter>,
    returnType: Ty,
    impl: Impl)

  /** The method still contains generic parameters, so it cannot be called. */
  predicate ContainsGenericParameters(m: Method) {
    m.declaringIsOpen || |m.typeParams| > 0
  }

  /** The shape C# guarantees for a declared method. */
  predicate WellFormed(m: Method) {
    && (m.isExtension ==> m.isStatic && |m.params| >= 1)
    && (forall i :: 0 <= i < |m.params| ==> ParametersBelow(m.params[i].ty, |m.typeParams|))
  }

  /** An immutable, validated method call: receiver, closed method and arguments. */
  datatype CallNode = CallNode(receiver: Option<Expr>, callee: Method, args: seq<Expr>)
}

=== FILE: display.dfy ===
/** The display string of a call node (its ToString). A static call prints the bare
    method name without its declaring type, an instance call prints the receiver first,
    and a method marked as an extension prints its first argument as the receiver. */
module Display {
  import opened Results
  import opened Text
  import opened Types
  import opened Values
  import opened Expressions
  import opened Descriptors

  function ValueText(v: Value, ty: Ty): string {
    match v
    case IntValue(i) => IntToString(i)
    case StringValue(s) => "\"" + s + "\""
    case Null => "null"
    case _ => TypeName(ty)
  }

  /** The display text of an operand: a parameter prints its name. */
  function ExprText(e: Expr): string
    decreases e
  {
    match e
    case Param(n, _) => n
    case Const(v, ty) => ValueText(v, ty)
    case FieldAccess(o, f, _, _) => ExprText(o) + "." + f
    case LiteralField(d, f, _, _) => TypeName(d) + "." + f
    case Property(t, d, name, _, idx, _) =>
      (if t.Some? then ExprText(t.value) else TypeName(d)) + "." + name
      + (if |idx| == 0 then "" else "[" + Join(Texts(idx), ", ") + "]")
    case ArrayIndex(a, idx, _, _) => ExprText(a) + "[" + Join(Texts(idx), ", ") + "]"
    case Unbox(x, _) => "Unbox(" + ExprText(x) + ")"
  }

  function Texts(es: seq<Expr>): (ts: seq<string>)
    ensures |ts| == |es|
    decreases es
  {
    if |es| == 0 then [] else [ExprText(es[0])] + Texts(es[1..])
  }

  function ArgumentList(es: seq<Expr>): string {
    Join(Texts(es), ", ")
  }

  /** The display string of a call. An extension method always has a first parameter,
      which the validated argument count carries over to the arguments. */
  function Render(n: CallNode): (s: string)
    requires n.callee.isExtension ==> |n.args| >= 1
    ensures |s| > |n.callee.name| && s[|s| - 1] == ')'
    ensures !n.callee.isExtension && n.receiver.None? ==> s == n.callee.name + "(" + Join(Texts(n.args), ", ") + ")"
    ensures !n.callee.isExtension && n.receiver.None? ==>
              s[..|n.callee.name| + 1] == n.callee.name + "("
  {
    var tail := n.callee.name + "(" + ArgumentList(if n.callee.isExtension then n.args[1..] else n.args) + ")";
    if n.callee.isExtension then
      ExprText(n.args[0]) + "." + tail
    else if n.receiver.Some? then
      ExprText(n.receiver.value) + "." + tail
    else tail
  }

  /** An instance call prints its receiver, a dot, then what the same call without a
      receiver prints. */
  lemma InstanceRendersReceiverThenStaticForm(n: CallNode)
    requires !n.callee.isExtension && n.receiver.Some?
    ensures Render(n) == ExprText(n.receiver.value) + "." + Render(n.(receiver := None))
  {
  }

  /** An extension call prints exactly as the instance call of the same method on its
      first argument would. */
  lemma ExtensionRendersAsInstance(n: CallNode)
    requires n.callee.isExtension && |n.args| >= 1
    ensures Render(n) == Render(CallNode(Some(n.args[0]), n.callee.(isExtension := false), n.args[1..]))
  {
  }

  /** The declaring type of a method never shows in the display string. */
  lemma RenderIgnoresDeclaringType(n: CallNode, t: Ty)
    requires n.callee.isExtension ==> |n.args| >= 1
    ensures Render(n) == Render(n.(callee := n.callee.(declaring := t)))
  {
  }
}

=== FILE: display_cases.dfy ===
/** The display strings the call tests expect: static calls print the bare method name,
    instance calls print the receiver first, and extension calls print their first
    argument as the receiver. */
module DisplayCases {
  import opened Results
  import opened Text
  import opened Types
  import opened Expressions
  import opened Descriptors
  import opened Validator
  import opened Display
  import opened Fixtures

  function IntParam(name: string): Expr {
    Param(name, Int32)
  }

  /** Validates a call whose every argument is present and renders the resulting node. */
  function Shown(m: Method, receiver: Option<Expr>, args: seq<Expr>): Option<string>
    requires m.isExtension ==> |args| >= 1
  {
    match Validate(Some(m), receiver, seq(|args|, i requires 0 <= i < |args| => Some(args[i])))
    case Success(n) => Some(Render(n))
    case Failure(_) => None
  }

  /** A call whose method, receiver and argument types all fit is shown as its node renders. */
  lemma AcceptedAsWritten(m: Method, receiver: Option<Expr>, args: seq<Expr>)
    requires m.isExtension ==> |args| >= 1
    requires !ContainsGenericParameters(m) && ReceiverFault(m, receiver).None? && |args| == |m.params|
    requires forall i :: 0 <= i < |args| ==> m.params[i].ty == args[i].ty && CanRead(args[i])
    ensures Shown(m, receiver, args) == Some(Render(CallNode(receiver, m, args)))
  {
    var opts := seq(|args|, i requires 0 <= i < |args| => Some(args[i]));
    forall i | 0 <= i < |args| ensures ArgumentFault(m.params[i], opts[i]).None? {
      assert opts[i] == Some(args[i]);
    }
    assert Acceptable(m, receiver, opts);
    var n := Validate(Some(m), receiver, opts).value;
    assert n.args == args;
  }

  /** The display of a parameter list of int parameters is their names joined by ", ". */
  lemma ParameterTexts(x: string, y: string)
    ensures ArgumentList([]) == ""
    ensures ArgumentList([IntParam(x)]) == x
    ensures ArgumentList([IntParam(x), IntParam(y)]) == x + ", " + y
  {
    assert [IntParam(x)][1..] == [];
    assert [IntParam(x), IntParam(y)][1..] == [IntParam(y)];
    assert Texts([IntParam(y)]) == [y];
    assert Texts([IntParam(x), IntParam(y)]) == [x, y];
    assert [x, y][1..] == [y];
  }

  /** Static methods: "S0()", "S1(x)", "S2(x, y)". */
  lemma StaticCalls()
    ensures Shown(SomeMethod("S0", true, []), None, []) == Some("S0()")
    ensures Shown(SomeMethod("S1", true, ["x"]), None, [IntParam("x")]) == Some("S1(x)")
    ensures Shown(SomeMethod("S2", true, ["x", "y"]), None, [IntParam("x"), IntParam("y")]) == Some("S2(x, y)")
  {
    ParameterTexts("x", "y");
    AcceptedAsWritten(SomeMethod("S0", true, []), None, []);
    AcceptedAsWritten(SomeMethod("S1", true, ["x"]), None, [IntParam("x")]);
    AcceptedAsWritten(SomeMethod("S2", true, ["x", "y"]), None, [IntParam("x"), IntParam("y")]);
    assert "S0" + "(" + "" + ")" == "S0()";
    assert "S1" + "(" + "x" + ")" == "S1(x)";
    assert "S2" + "(" + ("x" + ", " + "y") + ")" == "S2(x, y)";
  }

  /** Instance methods on a parameter `o`: "o.I0()", "o.I1(x)", "o.I2(x, y)". */
  lemma InstanceCalls()
    ensures var o := Param("o", SomeMethodsType);
            && Shown(SomeMethod("I0", false, []), Some(o), []) == Some("o.I0()")
            && Shown(SomeMethod("I1", false, ["x"]), Some(o), [IntParam("x")]) == Some("o.I1(x)")
            && Shown(SomeMethod("I2", false, ["x", "y"]), Some(o), [IntParam("x"), IntParam("y")]) == Some("o.I2(x, y)")
  {
    var o := Param("o", SomeMethodsType);
    ParameterTexts("x", "y");
    AcceptedAsWritten(SomeMethod("I0", false, []), Some(o), []);
    AcceptedAsWritten(SomeMethod("I1", false, ["x"]), Some(o), [IntParam("x")]);
    AcceptedAsWritten(SomeMethod("I2", false, ["x", "y"]), Some(o), [IntParam("x"), IntParam("y")]);
    assert "o" + "." + ("I0" + "(" + "" + ")") == "o.I0()";
    assert "o" + "." + ("I1" + "(" + "x" + ")") == "o.I1(x)";
    assert "o" + "." + ("I2" + "(" + ("x" + ", " + "y") + ")") == "o.I2(x, y)";
  }

  /** Extension methods: "x.E0()", "x.E1(y)", "x.E2(y, z)". */
  lemma ExtensionCalls()
    ensures Shown(Extension("E0", ["x"]), None, [IntParam("x")]) == Some("x.E0()")
    ensures Shown(Extension("E1", ["x", "y"]), None, [IntParam("x"), IntParam("y")]) == Some("x.E1(y)")
    ensures Shown(Extension("E2", ["x", "y", "z"]), None, [IntParam("x"), IntParam("y"), IntParam("z")]) == Some("x.E2(y, z)")
  {
    ParameterTexts("y", "z");
    assert [IntParam("x")][1..] == [];
    assert [IntParam("x"), IntParam("y")][1..] == [IntParam("y")];
    assert [IntParam("x"), IntParam("y"), IntParam("z")][1..] == [IntParam("y"), IntParam("z")];
    AcceptedAsWritten(Extension("E0", ["x"]), None, [IntParam("x")]);
    AcceptedAsWritten(Extension("E1", ["x", "y"]), None, [IntParam("x"), IntParam("y")]);
    AcceptedAsWritten(Extension("E2", ["x", "y", "z"]), None, [IntParam("x"), IntParam("y"), IntParam("z")]);
    assert "x" + "." + ("E0" + "(" + "" + ")") == "x.E0()";
    assert "x" + "." + ("E1" + "(" + "y" + ")") == "x.E1(y)";
    assert "x" + "." + ("E2" + "(" + ("y" + ", " + "z") + ")") == "x.E2(y, z)";
  }
}

=== FILE: errors.dfy ===
/** The exceptions that construction of a call node can throw, each with the name of
    the parameter it blames. */
module Errors {
  import opened Results
  import opened Text

  datatype ErrorKind =
    | ArgumentNull       // ArgumentNullException
    | ArgumentInvalid    // ArgumentException
    | InvalidOperation   // InvalidOperationException: no unique method matched

  /** The `ParamName` of the exception. */
  datatype Slot =
    | MethodSlot
    | InstanceSlot
    | ArgSlot(index: nat)
    | TypeSlot
    | MethodNameSlot
    | ArgumentsSlot
    | NoSlot

  datatype Thrown = Thrown(kind: ErrorKind, slot: Slot)

  /** The parameter name as the exception reports it: "arg0", "arg1", ... for the
      positional arguments, none for failures raised while binding type arguments. */
  function SlotName(s: Slot): (r: Option<string>)
    ensures r.None? <==> s.NoSlot?
    ensures s.ArgSlot? ==> r == Some("arg" + NatToString(s.index))
  {
    match s
    case MethodSlot => Some("method")
    case InstanceSlot => Some("instance")
    case ArgSlot(i) => Some("arg" + NatToString(i))
    case TypeSlot => Some("type")
    case MethodNameSlot => Some("methodName")
    case ArgumentsSlot => Some("arguments")
    case NoSlot => None
  }

  /** Different slots never report the same parameter name. */
  lemma SlotNameInjective(a: Slot, b: Slot)
    requires SlotName(a) == SlotName(b)
    ensures a == b
  {
    if a.ArgSlot? || b.ArgSlot? {
      var sa := SlotName(a).value;
      var sb := SlotName(b).value;
      assert IsDigit(sa[3]) <== a.ArgSlot?;
      assert IsDigit(sb[3]) <== b.ArgSlot?;
      if a.ArgSlot? && b.ArgSlot? {
        assert sa[3..] == NatToString(a.index);
        assert sb[3..] == NatToString(b.index);
        NatToStringInjective(a.index, b.index);
      }
    }
  }
}

=== FILE: executor.dfy ===
/** Running a validated call against a store: the receiver is passed by reference when it
    is addressable and as a copy otherwise, by-ref arguments are read, the method body
    runs, and the results are written back. A compiled lambda whose body is such a call
    can be invoked repeatedly; the heap persists between invocations, the parameters do
    not. */
module Executor {
  import opened Results
  import opened Types
  import opened Values
  import opened Expressions
  import opened Descriptors
  import opened Store

  /** How the final value of a by-ref argument reaches its origin. */
  datatype WriteBack =
    | NoWriteBack                  // a temporary: the callee's change is lost
    | Direct(loc: Location)        // the callee worked on the storage itself
    | ThroughSetter(accessor: Accessor, ownerLoc: Location, owner: Value, indices: seq<Value>)

  /** The write-back plan of a by-ref argument, made before the call. A property or indexer
      is written back through its setter, with the owner's storage, the owner and the index
      values captured before the call; any other operand is written back exactly when it is
      addressable, into the storage that holds its value. */
  function Plan(e: Expr, st: State): (r: Result<WriteBack, Fault>)
    ensures e.Property? && r.Success? ==>
              && r.value.ThroughSetter? && r.value.accessor == e.accessor
              && EvalAll(e.indices, st) == Success(r.value.indices)
              && (e.target.Some? ==>
                    Locate(e.target.value, st) == Success(r.value.ownerLoc) && Eval(e.target.value, st) == Success(r.value.owner))
              && (e.target.None? ==> r.value.ownerLoc.Temporary? && r.value.owner == Null)
    ensures e.Property? && Eval(e, st).Success? ==> r.Success?
    ensures !e.Property? ==> (r.Success? <==> Locate(e, st).Success?)
    ensures !e.Property? && r.Success? ==> (r.value.NoWriteBack? <==> !Addressable(e))
    ensures !e.Property? && r.Success? && r.value.Direct? ==>
              Locate(e, st) == Success(r.value.loc) && Read(r.value.loc, st) == Eval(e, st)
  {
    if e.Property? then
      LocateOrFail(e.target, st);
      var ownerLoc :- if e.target.Some? then Locate(e.target.value, st) else Success(Temporary);
      var owner :- if e.target.Some? then Eval(e.target.value, st) else Success(Null);
      var ix :- EvalAll(e.indices, st);
      Success(ThroughSetter(e.accessor, ownerLoc, owner, ix))
    else
      var loc :- Locate(e, st);
      Success(if loc.Temporary? then NoWriteBack else Direct(loc))
  }

  /** Locating an operand fails only where evaluating it fails. */
  lemma LocateOrFail(t: Option<Expr>, st: State)
    ensures t.Some? && Eval(t.value, st).Success? ==> Locate(t.value, st).Success?
  {
    if t.Some? {
      LocateAgreesWithEval(t.value, st);
    }
  }

  /** The plans of all arguments: a by-ref position gets the plan of its argument, any other
      position gets none; planning fails exactly when a by-ref argument's plan fails. */
  function PlanAll(ps: seq<Parameter>, args: seq<Expr>, st: State): (r: Result<seq<WriteBack>, Fault>)
    requires |ps| == |args|
    ensures r.Success? <==> forall i :: 0 <= i < |ps| && ps[i].byRef ==> Plan(args[i], st).Success?
    ensures r.Success? ==> |r.value| == |args|
    ensures r.Success? ==> forall i :: 0 <= i < |ps| && !ps[i].byRef ==> r.value[i].NoWriteBack?
    ensures r.Success? ==> forall i :: 0 <= i < |ps| && ps[i].byRef ==> Plan(args[i], st) == Success(r.value[i])
  {
    if |ps| == 0 then Success([])
    else
      var w :- if ps[0].byRef then Plan(args[0], st) else Success(NoWriteBack);
      var ws :- PlanAll(ps[1..], args[1..], st);
      assert forall i :: 1 <= i < |ps| ==> ps[i] == ps[1..][i - 1] && args[i] == args[1..][i - 1];
      Success([w] + ws)
  }

  /** The result of running a method body: its return value and the final values of the
      receiver and of the arguments. */
  datatype Outcome = Outcome(result: Value, receiver: Option<Value>, args: seq<Value>)

  /** The method bodies of the fixtures. `Foo` returns the struct's count and leaves it one
      higher (`x++`), `ByRef` raises its first argument by one (`++x`), `GetType` reports the
      receiver's dynamic type and throws on null; only `Foo` changes its receiver. */
  function Apply(impl: Impl, recv: Option<Value>, vs: seq<Value>, h: Heap): (r: Result<Outcome, Fault>)
    ensures r.Success? ==> |r.value.args| == |vs|
    ensures r.Success? && !impl.PostIncrementReceiver? ==> r.value.receiver == recv
    ensures r.Success? && !impl.PreIncrementFirstArgument? ==> r.value.args == vs
    ensures impl.PostIncrementReceiver? ==>
              (r.Success? <==> recv.Some? && recv.value.MutableValue?) &&
              (r.Success? ==> r.value.result == IntValue(recv.value.x) &&
                              r.value.receiver == Some(MutableValue(Increment(recv.value.x))))
    ensures impl.PreIncrementFirstArgument? ==>
              (r.Success? <==> |vs| >= 1 && vs[0].IntValue?) &&
              (r.Success? ==> r.value.args[0] == IntValue(Increment(vs[0].i)) && r.value.args[1..] == vs[1..])
    ensures impl.ReportReceiverType? && recv.Some? && recv.value.Null? ==> r == Failure(NullReference)
    ensures impl.ReportReceiverType? && r.Success? ==> recv.Some? && r.value.result == TypeValue(RuntimeType(recv.value, h))
  {
    match impl
    case NoEffect => Success(Outcome(Unit, recv, vs))
    case PostIncrementReceiver =>
      if recv.Some? && recv.value.MutableValue? then
        Success(Outcome(IntValue(recv.value.x), Some(MutableValue(Increment(recv.value.x))), vs))
      else Failure(IllTyped)
    case PreIncrementFirstArgument =>
      if |vs| >= 1 && vs[0].IntValue? then Success(Outcome(Unit, recv, vs[0 := IntValue(Increment(vs[0].i))]))
      else Failure(IllTyped)
    case ReportReceiverType =>
      if recv.None? then Failure(IllTyped)
      else if recv.value.Null? then Failure(NullReference)
      else Success(Outcome(TypeValue(RuntimeType(recv.value, h)), recv, vs))
  }

  /** The storage a write-back stores into, if any: the by-ref storage itself, the field
      behind a class's property setter, the element behind a List indexer's setter, or the
      storage of a struct owner. */
  function WritesTo(w: WriteBack): Option<Location> {
    match w
    case NoWriteBack => None
    case Direct(loc) => Some(loc)
    case ThroughSetter(acc, ownerLoc, owner, ix) =>
      match acc
      case FieldBacked(f) => if owner.Reference? then Some(ObjectField(owner.address, f)) else None
      case ListElement =>
        if owner.Reference? && |ix| == 1 && ix[0].IntValue? then Some(ListItem(owner.address, ix[0].i)) else None
      case StructState => Some(ownerLoc)
      case SetOnly => None
  }

  /** What a write-back stores when the argument's final value is `v`: the value itself, or
      for the struct's setter the struct holding the value. */
  function Stored(w: WriteBack, v: Value): Value {
    if w.ThroughSetter? && w.accessor.StructState? && v.IntValue? then MutableValue(v.i) else v
  }

  /** One write-back. It stores into the storage `WritesTo` names, when that storage exists,
      and changes no other location. */
  function Step(w: WriteBack, v: Value, st: State): (r: Result<State, Fault>)
    ensures r.Success? ==> r.value.heap.Keys == st.heap.Keys
    ensures w.NoWriteBack? ==> r == Success(st)
    ensures r.Success? ==> forall loc :: Some(loc) != WritesTo(w) ==> Read(loc, r.value) == Read(loc, st)
    ensures r.Success? && WritesTo(w).Some? && Read(WritesTo(w).value, st).Success? ==>
              Read(WritesTo(w).value, r.value) == Success(Stored(w, v))
  {
    match w
    case NoWriteBack => Success(st)
    case Direct(loc) => Success(Write(loc, v, st))
    case ThroughSetter(acc, ownerLoc, owner, ix) => Set(acc, ownerLoc, owner, ix, v, st)
  }

  /** The write-backs, in argument order. */
  function WriteBackAll(plans: seq<WriteBack>, vs: seq<Value>, st: State): (r: Result<State, Fault>)
    requires |plans| == |vs|
    ensures r.Success? ==> r.value.heap.Keys == st.heap.Keys
    ensures (forall i :: 0 <= i < |plans| ==> plans[i].NoWriteBack?) ==> r == Success(st)
  {
    if |plans| == 0 then Success(st)
    else
      var st1 :- Step(plans[0], vs[0], st);
      WriteBackAll(plans[1..], vs[1..], st1)
  }

  /** No write-back in the list stores into `loc`. */
  predicate Untouched(plans: seq<WriteBack>, loc: Location) {
    forall j :: 0 <= j < |plans| ==> WritesTo(plans[j]) != Some(loc)
  }

  /** Storage no write-back stores into keeps its contents. */
  lemma {:induction false} WriteBackFrame(plans: seq<WriteBack>, vs: seq<Value>, st: State, loc: Location)
    requires |plans| == |vs| && Untouched(plans, loc)
    ensures WriteBackAll(plans, vs, st).Success? ==> Read(loc, WriteBackAll(plans, vs, st).value) == Read(loc, st)
  {
    if |plans| > 0 {
      var r1 := Step(plans[0], vs[0], st);
      if r1.Success? {
        assert Untouched(plans[1..], loc) by {
          forall j | 0 <= j < |plans| - 1 ensures WritesTo(plans[1..][j]) != Some(loc) {
            assert plans[1..][j] == plans[j + 1];
          }
        }
        WriteBackFrame(plans[1..], vs[1..], r1.value, loc);
      }
    }
  }

  /** The write-back of argument i lands: when no later write-back stores into the same
      storage, that storage ends up holding what argument i's write-back stores. */
  lemma {:induction false} WriteBackLands(plans: seq<WriteBack>, vs: seq<Value>, st: State, i: nat, loc: Location)
    requires |plans| == |vs| && i < |plans|
    requires WritesTo(plans[i]) == Some(loc) && Read(loc, st).Success?
    requires Untouched(plans[i + 1..], loc)
    ensures WriteBackAll(plans, vs, st).Success? ==>
              Read(loc, WriteBackAll(plans, vs, st).value) == Success(Stored(plans[i], vs[i]))
  {
    var r1 := Step(plans[0], vs[0], st);
    if r1.Success? {
      if i == 0 {
        WriteBackFrame(plans[1..], vs[1..], r1.value, loc);
      } else {
        assert Read(loc, r1.value).Success?;
        assert plans[1..][i - 1] == plans[i] && vs[1..][i - 1] == vs[i];
        assert plans[1..][i..] == plans[i + 1..];
        WriteBackLands(plans[1..], vs[1..], r1.value, i - 1, loc);
      }
    }
  }

  /** A call node as the validator produces it has one argument per parameter. */
  predicate Runnable(n: CallNode) {
    |n.args| == |n.callee.params|
  }

  /** The call has no receiver and passes nothing by reference, so it can change no
      storage of the caller. */
  predicate NoStorageGiven(n: CallNode) {
    && (n.callee.isStatic || n.receiver.None?)
    && forall i :: 0 <= i < |n.callee.params| ==> !n.callee.params[i].byRef
  }

  /** Executes a call: locate and read the receiver, evaluate the arguments and plan their
      write-backs, run the body, store the receiver back into its storage (a temporary
      receiver's change is lost), then write back the by-ref arguments in order. */
  function Execute(n: CallNode, st: State): (r: Result<(Value, State), Fault>)
    requires Runnable(n)
    ensures r.Success? ==> r.value.1.heap.Keys == st.heap.Keys
    ensures r.Success? && NoStorageGiven(n) ==> r.value.1 == st
    ensures r.Success? ==> CalleeOutcome(n, st).Success? && r.value.0 == CalleeOutcome(n, st).value.result
  {
    var m := n.callee;
    var hasReceiver := HasReceiver(n);
    var rloc :- if hasReceiver then Locate(n.receiver.value, st) else Success(Temporary);
    var rv :- if hasReceiver then Eval(n.receiver.value, st) else Success(Unit);
    var vs :- EvalAll(n.args, st);
    var plans :- PlanAll(m.params, n.args, st);
    var out :- Apply(m.impl, if hasReceiver then Some(rv) else None, vs, st.heap);
    var st1 := if out.receiver.Some? then Write(rloc, out.receiver.value, st) else st;
    var st2 :- WriteBackAll(plans, out.args, st1);
    Success((out.result, st2))
  }

  /** The call passes a receiver: an instance method given one. */
  predicate HasReceiver(n: CallNode) {
    !n.callee.isStatic && n.receiver.Some?
  }

  /** What the callee's body produces from the receiver and argument values before the call. */
  function CalleeOutcome(n: CallNode, st: State): Result<Outcome, Fault> {
    var rv :- if HasReceiver(n) then Eval(n.receiver.value, st) else Success(Unit);
    var vs :- EvalAll(n.args, st);
    Apply(n.callee.impl, if HasReceiver(n) then Some(rv) else None, vs, st.heap)
  }

  /** A by-ref argument's final value reaches its origin: after the call, the storage its
      write-back stores into (the argument's own storage, or the owner of its property or
      indexer) holds what the callee left in the argument, provided no later by-ref argument
      stores into the same storage. */
  lemma ExecuteWritesBack(n: CallNode, st: State, i: nat, loc: Location)
    requires Runnable(n) && i < |n.args| && n.callee.params[i].byRef
    requires Read(loc, st).Success?
    requires forall j :: i < j < |n.args| && n.callee.params[j].byRef && Plan(n.args[j], st).Success? ==>
               WritesTo(Plan(n.args[j], st).value) != Some(loc)
    ensures var r := Execute(n, st);
            r.Success? && WritesTo(Plan(n.args[i], st).value) == Some(loc) ==>
              Read(loc, r.value.1) == Success(Stored(Plan(n.args[i], st).value, CalleeOutcome(n, st).value.args[i]))
  {
    var r := Execute(n, st);
    if r.Success? && WritesTo(Plan(n.args[i], st).value) == Some(loc) {
      var m := n.callee;
      var rloc := if HasReceiver(n) then Locate(n.receiver.value, st).value else Temporary;
      var plans := PlanAll(m.params, n.args, st).value;
      var out := CalleeOutcome(n, st).value;
      var st1 := if out.receiver.Some? then Write(rloc, out.receiver.value, st) else st;
      assert Read(loc, st1).Success?;
      var later := plans[i + 1..];
      assert Untouched(later, loc) by {
        forall j | 0 <= j < |later| ensures WritesTo(later[j]) != Some(loc) {
          assert later[j] == plans[i + 1 + j];
        }
      }
      WriteBackLands(plans, out.args, st1, i, loc);
    }
  }

  datatype Body =
    | Evaluate(call: CallNode)                  // the lambda returns the call's result
    | ThenRead(call: CallNode, result: Expr)    // a block: make the call, then return `result`

  datatype Lambda = Lambda(params: seq<string>, body: Body)

  predicate Compiled(f: Lambda) {
    Runnable(f.body.call)
  }

  function Bind(names: seq<string>, vals: seq<Value>): (env: map<string, Value>)
    requires |names| == |vals|
    ensures env.Keys == set n | n in names
  {
    if |names| == 0 then map[] else Bind(names[..|names| - 1], vals[..|vals| - 1])[names[|names| - 1] := vals[|vals| - 1]]
  }

  /** One invocation: fresh parameters bound to the arguments, over the shared heap. */
  function Invoke(f: Lambda, args: seq<Value>, h: Heap): (r: Result<(Value, Heap), Fault>)
    requires Compiled(f) && |args| == |f.params|
    ensures r.Success? ==> r.value.1.Keys == h.Keys
  {
    var st := State(Bind(f.params, args), h);
    match f.body
    case Evaluate(call) =>
      var (v, st1) :- Execute(call, st);
      Success((v, st1.heap))
    case ThenRead(call, e) =>
      var (_, st1) :- Execute(call, st);
      var v :- Eval(e, st1);
      Success((v, st1.heap))
  }

  /** The results of `count` consecutive invocations with the same arguments. */
  function Repeat(f: Lambda, args: seq<Value>, h: Heap, count: nat): (r: Result<seq<Value>, Fault>)
    requires Compiled(f) && |args| == |f.params|
    ensures r.Success? ==> |r.value| == count
    ensures count > 0 ==> (r.Success? ==> Invoke(f, args, h).Success? && r.value[0] == Invoke(f, args, h).value.0)
    decreases count
  {
    if count == 0 then Success([])
    else
      var (v, h1) :- Invoke(f, args, h);
      var vs :- Repeat(f, args, h1, count - 1);
      Success([v] + vs)
  }

  // ---- repeated invocation ----

  /** `count` consecutive 32-bit values starting at `x`, as results. */
  function Successors(x: int, count: nat): (r: seq<Value>)
    ensures |r| == count
    decreases count
  {
    if count == 0 then [] else [IntValue(x)] + Successors(Increment(x), count - 1)
  }

  /** Without overflow, invocation `i` of a persistent counter reports `x + i`. */
  lemma {:induction false} SuccessorsCount(x: int, count: nat)
    requires MinInt32 <= x && x + count <= MaxInt32 + 1
    ensures forall i :: 0 <= i < count ==> Successors(x, count)[i] == IntValue(x + i)
    decreases count
  {
    if count > 0 {
      SuccessorsCount(x + 1, count - 1);
    }
  }

  function Repeated(v: Value, count: nat): (r: seq<Value>)
    ensures |r| == count && forall i :: 0 <= i < count ==> r[i] == v
    decreases count
  {
    if count == 0 then [] else [v] + Repeated(v, count - 1)
  }

  /** A lambda whose body is `receiver.Foo()` for the post-incrementing `Mutable.Foo`. */
  predicate CallsFooOn(f: Lambda, e: Expr) {
    && f.body.Evaluate?
    && f.body.call.receiver == Some(e)
    && !f.body.call.callee.isStatic
    && f.body.call.callee.impl == PostIncrementReceiver
    && f.body.call.callee.params == []
    && f.body.call.args == []
  }

  /** When the receiver is storage holding `x`, one call returns `x` and leaves the storage
      holding `x + 1`; nothing else changes. */
  lemma PersistentReceiverStep(f: Lambda, e: Expr, args: seq<Value>, h: Heap, loc: Location, x: int)
    requires CallsFooOn(f, e) && |args| == |f.params|
    requires IsHeapLocation(loc)
    requires Locate(e, State(Bind(f.params, args), h)) == Success(loc)
    requires Read(loc, State(Bind(f.params, args), h)) == Success(MutableValue(x))
    ensures Invoke(f, args, h) == Success((IntValue(x), Write(loc, MutableValue(Increment(x)), State(Bind(f.params, args), h)).heap))
  {
    LocateAgreesWithEval(e, State(Bind(f.params, args), h));
  }

  /** When the receiver is a temporary copy of `x`, one call returns `x` and the heap is
      unchanged. */
  lemma CopiedReceiverStep(f: Lambda, e: Expr, args: seq<Value>, h: Heap, x: int)
    requires CallsFooOn(f, e) && |args| == |f.params|
    requires Locate(e, State(Bind(f.params, args), h)) == Success(Temporary)
    requires Eval(e, State(Bind(f.params, args), h)) == Success(MutableValue(x))
    ensures Invoke(f, args, h) == Success((IntValue(x), h))
  {
  }

  /** Storage addressed by `e` stays the same storage whatever value it comes to hold. */
  ghost predicate Stable(e: Expr, env: map<string, Value>, h: Heap, loc: Location) {
    forall y :: Locate(e, Write(loc, MutableValue(y), State(env, h))) == Success(loc)
  }

  /** A persistent receiver counts: `count` invocations report `x`, `x + 1`, ... (with
      32-bit wrap-around). */
  lemma {:induction false} RepeatPersistent(f: Lambda, e: Expr, args: seq<Value>, h: Heap, loc: Location, x: int, count: nat)
    requires CallsFooOn(f, e) && |args| == |f.params|
    requires IsHeapLocation(loc)
    requires Stable(e, Bind(f.params, args), h, loc)
    requires Read(loc, State(Bind(f.params, args), h)) == Success(MutableValue(x))
    ensures Repeat(f, args, h, count) == Success(Successors(x, count))
    decreases count
  {
    var env := Bind(f.params, args);
    var st := State(env, h);
    if count > 0 {
      WriteCurrent(loc, st);
      assert Locate(e, st) == Success(loc) by {
        assert Locate(e, Write(loc, MutableValue(x), st)) == Success(loc);
      }
      PersistentReceiverStep(f, e, args, h, loc, x);
      var st1 := Write(loc, MutableValue(Increment(x)), st);
      assert st1.env == env;
      assert Stable(e, env, st1.heap, loc) by {
        forall y ensures Locate(e, Write(loc, MutableValue(y), State(env, st1.heap))) == Success(loc) {
          WriteTwice(loc, MutableValue(Increment(x)), MutableValue(y), st);
          assert State(env, st1.heap) == st1;
          assert Locate(e, Write(loc, MutableValue(y), st)) == Success(loc);
        }
      }
      RepeatPersistent(f, e, args, st1.heap, loc, Increment(x), count - 1);
    }
  }

  /** An invocation that leaves the heap as it found it returns the same value every time. */
  lemma {:induction false} RepeatStable(f: Lambda, args: seq<Value>, h: Heap, v: Value, count: nat)
    requires Compiled(f) && |args| == |f.params|
    requires Invoke(f, args, h) == Success((v, h))
    ensures Repeat(f, args, h, count) == Success(Repeated(v, count))
    decreases count
  {
    if count > 0 {
      RepeatStable(f, args, h, v, count - 1);
    }
  }

  /** A copied receiver never counts: every invocation reports the original `x`. */
  lemma RepeatCopied(f: Lambda, e: Expr, args: seq<Value>, h: Heap, x: int, count: nat)
    requires CallsFooOn(f, e) && |args| == |f.params|
    requires Locate(e, State(Bind(f.params, args), h)) == Success(Temporary)
    requires Eval(e, State(Bind(f.params, args), h)) == Success(MutableValue(x))
    ensures Repeat(f, args, h, count) == Success(Repeated(IntValue(x), count))
  {
    CopiedReceiverStep(f, e, args, h, x);
    RepeatStable(f, args, h, IntValue(x), count);
  }
}

=== FILE: expressions.dfy ===
/** The expression shapes the call tests build as receivers and arguments.
    Every shape carries its static type `ty`. */
module Expressions {
  import opened Results
  import opened Types
  import opened Values

  /** What the getter and setter of a property or indexer do. */
  datatype Accessor =
    | FieldBacked(field: string)  // Wrapper<T>.Property: get returns Field, set assigns it
    | StructState                 // Mutable.X and Mutable.this[int]: get returns x, set assigns x
    | ListElement                 // List<T>.Item: get and set the element at the index
    | SetOnly                     // Unreadable<T>.WriteOnly: a setter with an empty body, no getter

  /** The two factories for array elements, ArrayIndex and ArrayAccess. */
  datatype IndexForm = ArrayIndexForm | ArrayAccessForm

  datatype Expr =
    | Param(name: string, ty: Ty)
    | Const(value: Value, ty: Ty)
    | FieldAccess(owner: Expr, field: string, readOnly: bool, ty: Ty)
    | LiteralField(declaring: Ty, field: string, value: Value, ty: Ty)   // a `const` field
    | Property(target: Option<Expr>, declaring: Ty, name: string, accessor: Accessor, indices: seq<Expr>, ty: Ty)
    | ArrayIndex(array: Expr, indices: seq<Expr>, form: IndexForm, ty: Ty)
    | Unbox(operand: Expr, ty: Ty)

  /** An expression can be read unless it denotes a property without a getter. */
  predicate CanRead(e: Expr) {
    !(e.Property? && e.accessor.SetOnly?)
  }
}

=== FILE: fixtures.dfy ===
/** The types and methods the call tests declare, as method descriptors, and the operand
    shapes they pass around. */
module Fixtures {
  import opened Results
  import opened Text
  import opened Types
  import opened Values
  import opened Expressions
  import opened Descriptors

  /** A method with an empty body declared on a closed, non-generic type. */
  function Declared(declaring: Ty, name: string, isStatic: bool, typeParams: seq<Constraint>,
                    params: seq<Parameter>): Method {
    Method(declaring, false, name, isStatic, false, typeParams, [], params, VoidType, NoEffect)
  }

  /** `n` by-value `int` parameters named i1, i2, ... */
  function IntParams(n: nat): (ps: seq<Parameter>)
    ensures |ps| == n
  {
    seq(n, i requires 0 <= i < n => Parameter("i" + NatToString(i + 1), Int32, false))
  }

  function ValueParam(name: string, ty: Ty): Parameter {
    Parameter(name, ty, false)
  }

  // ---- the validator and resolver fixtures ----

  const NonGenericClassType: Ty := Class("NonGenericClass")

  const GenericMethod: Method := Declared(NonGenericClassType, "GenericMethod", true, [Unconstrained], [])
  const InstanceMethod: Method := Declared(NonGenericClassType, "InstanceMethod", false, [], [])
  const StaticMethod: Method := Declared(NonGenericClassType, "StaticMethod", true, [], [])

  /** Method0 ... Method5: static, with 0 ... 5 int parameters. */
  function NumberedMethod(n: nat): (m: Method)
    ensures |m.params| == n
  {
    Declared(NonGenericClassType, "Method" + NatToString(n), true, [], IntParams(n))
  }

  const GenericInstanceMethod: Method :=
    Declared(NonGenericClassType, "GenericInstanceMethod", false, [Unconstrained], [ValueParam("t1", TypeParameter(0))])
  const GenericStaticMethod: Method :=
    Declared(NonGenericClassType, "GenericStaticMethod", true, [Unconstrained], [ValueParam("t1", TypeParameter(0))])
  const ConstrainedInstanceMethod: Method :=
    Declared(NonGenericClassType, "ConstrainedInstanceMethod", false, [ValueTypeConstraint], [ValueParam("t1", TypeParameter(0))])
  const ConstrainedStaticMethod: Method :=
    Declared(NonGenericClassType, "ConstrainedStaticMethod", true, [ValueTypeConstraint], [ValueParam("t1", TypeParameter(0))])
  const InstanceMethod1: Method := Declared(NonGenericClassType, "InstanceMethod1", false, [], IntParams(1))
  const StaticMethod1: Method := Declared(NonGenericClassType, "StaticMethod1", true, [], IntParams(1))

  /** The methods of NonGenericClass in declaration order. */
  const NonGenericClassMethods: seq<Method> := [
    GenericMethod, InstanceMethod, StaticMethod,
    NumberedMethod(0), NumberedMethod(1), NumberedMethod(2),
    NumberedMethod(3), NumberedMethod(4), NumberedMethod(5),
    Declared(NonGenericClassType, "staticSameName", false, [], [ValueParam("i1", UInt32)]),
    Declared(NonGenericClassType, "instanceSameName", false, [], [ValueParam("i1", Int32)]),
    Declared(NonGenericClassType, "StaticSameName", true, [], [ValueParam("i1", UInt32)]),
    Declared(NonGenericClassType, "staticSameName", true, [], [ValueParam("i1", Int32)]),
    GenericInstanceMethod, GenericStaticMethod,
    ConstrainedInstanceMethod, ConstrainedStaticMethod,
    InstanceMethod1, StaticMethod1
  ]

  /** GenericClass<T>.NonGenericMethod, looked up on the open type GenericClass<>. */
  const OpenNonGenericMethod: Method :=
    Method(Class("GenericClass"), true, "NonGenericMethod", true, false, [], [], [], VoidType, NoEffect)

  /** The operand every valid argument position receives: the constant 5. */
  const Valid: Expr := Const(IntValue(5), Int32)

  /** A string constant, which no int parameter accepts. */
  const Abc: Expr := Const(StringValue("abc"), StringType)

  /** Unreadable<string>.WriteOnly: a static property with a setter and no getter. */
  const WriteOnly: Expr := Property(None, Class("Unreadable"), "WriteOnly", SetOnly, [], StringType)

  /** `Expression.Constant(new NonGenericClass())`. */
  const SomeInstance: Expr := Const(Reference(0), NonGenericClassType)

  // ---- the write-back fixtures ----

  const MutableType: Ty := Struct("Mutable")

  /** Mutable.Foo: returns the private counter and then increments it. */
  const Foo: Method := Method(MutableType, false, "Foo", false, false, [], [], [], Int32, PostIncrementReceiver)

  /** Methods.ByRef(ref int x): increments its argument. */
  const ByRef: Method :=
    Method(Class("Methods"), false, "ByRef", true, false, [], [], [Parameter("x", Int32, true)], VoidType, PreIncrementFirstArgument)

  /** object.GetType. */
  const GetType: Method := Method(ObjectType, false, "GetType", false, false, [], [], [], TypeType, ReportReceiverType)

  // ---- the display fixtures ----

  const SomeMethodsType: Ty := Class("SomeMethods")

  function IntNamed(names: seq<string>): (ps: seq<Parameter>)
    ensures |ps| == |names|
  {
    seq(|names|, i requires 0 <= i < |names| => ValueParam(names[i], Int32))
  }

  function SomeMethod(name: string, isStatic: bool, names: seq<string>): Method {
    Declared(SomeMethodsType, name, isStatic, [], IntNamed(names))
  }

  /** ExtensionMethods.E0 ... E2: `this int x` followed by further int parameters. */
  function Extension(name: string, names: seq<string>): Method {
    Method(Class("ExtensionMethods"), false, name, true, true, [], [], IntNamed(names), VoidType, NoEffect)
  }
}

=== FILE: resolution_cases.dfy ===
/** The exceptions the call tests expect from by-name construction on NonGenericClass,
    through an instance and through the type. */
module ResolutionCases {
  import opened Results
  import opened Types
  import opened Values
  import opened Expressions
  import opened Descriptors
  import opened Errors
  import opened Resolver
  import opened Fixtures

  /** A name no method of the arena carries has no candidates. */
  lemma NoCandidates(arena: seq<Method>, owner: Ty, name: string, isStatic: bool)
    requires forall j :: 0 <= j < |arena| ==> !IsCandidate(arena[j], owner, name, isStatic)
    ensures Candidates(arena, owner, name, isStatic) == []
  {
  }

  /** The candidate list of a name that exactly one method of the arena carries. */
  lemma {:induction false} SingleCandidate(arena: seq<Method>, owner: Ty, name: string, isStatic: bool, k: nat)
    requires k < |arena| && IsCandidate(arena[k], owner, name, isStatic)
    requires forall j :: 0 <= j < |arena| && j != k ==> !IsCandidate(arena[j], owner, name, isStatic)
    ensures Candidates(arena, owner, name, isStatic) == [arena[k]]
    decreases |arena|
  {
    if k == 0 {
      NoCandidates(arena[1..], owner, name, isStatic);
    } else {
      SingleCandidate(arena[1..], owner, name, isStatic, k - 1);
    }
  }

  /** Where each method the tests look up sits in NonGenericClass, and that its name and
      kind single it out. */
  lemma Unique(k: nat)
    requires 13 <= k < 19 || k == 1 || k == 2
    ensures var m := NonGenericClassMethods[k];
            Candidates(NonGenericClassMethods, NonGenericClassType, m.name, m.isStatic) == [m]
  {
    var m := NonGenericClassMethods[k];
    SingleCandidate(NonGenericClassMethods, NonGenericClassType, m.name, m.isStatic, k);
  }

  /** With a single candidate, resolution reports that candidate's verdict. */
  lemma SingleVerdict(target: Target, name: string, m: Method, typeArgs: Option<seq<Option<Ty>>>, args: seq<Option<Expr>>)
    requires TargetGiven(target)
    requires Candidates(NonGenericClassMethods, TargetType(target), name, target.OnType?) == [m]
    ensures var r := Resolve(NonGenericClassMethods, target, Some(name), typeArgs, args);
            match Judge(m, typeArgs, args)
            case Raises(t) => r == Failure(t)
            case Excluded => r == Failure(Thrown(InvalidOperation, NoSlot))
            case Matches(b) => r == Success(b)
  {
    var vs := Verdicts([m], typeArgs, args);
    assert vs == [Judge(m, typeArgs, args)];
    assert vs[1..] == [];
    if vs[0].Excluded? {
      assert Scan(vs[1..], None) == Success(None);
    } else if vs[0].Matches? {
      assert Scan(vs[1..], Some(vs[0].bound)) == Success(Some(vs[0].bound));
    }
  }

  /** The instance target for instance methods, the type target for static ones. */
  function TargetFor(isStatic: bool): Target {
    if isStatic then OnType(Some(NonGenericClassType)) else OnInstance(Some(SomeInstance))
  }

  /** A null instance or type blames `instance` or `type`; a null name blames `methodName`. */
  lemma NullReferencesBlameTheirParameter(typeArgs: Option<seq<Option<Ty>>>, args: seq<Option<Expr>>)
    ensures SlotName(InstanceSlot) == Some("instance") && SlotName(TypeSlot) == Some("type")
    ensures SlotName(MethodNameSlot) == Some("methodName")
    ensures Resolve(NonGenericClassMethods, OnInstance(None), Some("methodName"), typeArgs, args)
              == Failure(Thrown(ArgumentNull, InstanceSlot))
    ensures Resolve(NonGenericClassMethods, OnType(None), Some("methodName"), typeArgs, args)
              == Failure(Thrown(ArgumentNull, TypeSlot))
    ensures forall isStatic :: Resolve(NonGenericClassMethods, TargetFor(isStatic), None, typeArgs, args)
              == Failure(Thrown(ArgumentNull, MethodNameSlot))
  {
  }

  lemma NameAbsent()
    ensures forall j :: 0 <= j < |NonGenericClassMethods| ==> NonGenericClassMethods[j].name != "NoSuchMethod"
  {
  }

  /** An unknown name is not found. */
  lemma UnknownNameNotFound(isStatic: bool)
    ensures Resolve(NonGenericClassMethods, TargetFor(isStatic), Some("NoSuchMethod"), None, [])
              == Failure(Thrown(InvalidOperation, NoSlot))
  {
    NameAbsent();
    NoCandidates(NonGenericClassMethods, NonGenericClassType, "NoSuchMethod", isStatic);
  }

  /** A generic method is not found without type arguments, with none, or with two where
      it takes one. */
  lemma GenericMethodNeedsItsTypeArguments(isStatic: bool, typeArgs: Option<seq<Option<Ty>>>)
    requires typeArgs == None || typeArgs == Some([]) || typeArgs == Some([None, None])
    ensures var name := if isStatic then "GenericStaticMethod" else "GenericInstanceMethod";
            Resolve(NonGenericClassMethods, TargetFor(isStatic), Some(name), typeArgs, [])
              == Failure(Thrown(InvalidOperation, NoSlot))
  {
    var k := if isStatic then 14 else 13;
    Unique(k);
    var m := NonGenericClassMethods[k];
    SingleVerdict(TargetFor(isStatic), m.name, m, typeArgs, []);
    assert Judge(m, typeArgs, []) == Excluded;
  }

  /** Binding `object` to a type parameter constrained to value types throws
      ArgumentException naming no parameter, before the missing argument is noticed. */
  lemma ConstraintViolationRaised(isStatic: bool)
    ensures var name := if isStatic then "ConstrainedStaticMethod" else "ConstrainedInstanceMethod";
            Resolve(NonGenericClassMethods, TargetFor(isStatic), Some(name), Some([Some(ObjectType)]), [])
              == Failure(Thrown(ArgumentInvalid, NoSlot))
  {
    var k := if isStatic then 16 else 15;
    Unique(k);
    var m := NonGenericClassMethods[k];
    SingleVerdict(TargetFor(isStatic), m.name, m, Some([Some(ObjectType)]), []);
    assert !Satisfies(ObjectType, m.typeParams[0]);
    assert Judge(m, Some([Some(ObjectType)]), []) == Raises(Thrown(ArgumentInvalid, NoSlot));
  }

  /** A non-generic method given a type argument is not found. */
  lemma TypeArgumentsOnNonGenericNotFound(isStatic: bool)
    ensures var name := if isStatic then "StaticMethod" else "InstanceMethod";
            Resolve(NonGenericClassMethods, TargetFor(isStatic), Some(name), Some([None]), [])
              == Failure(Thrown(InvalidOperation, NoSlot))
  {
    var k := if isStatic then 2 else 1;
    Unique(k);
    var m := NonGenericClassMethods[k];
    SingleVerdict(TargetFor(isStatic), m.name, m, Some([None]), []);
    assert Judge(m, Some([None]), []) == Excluded;
  }

  /** A null type argument throws ArgumentNullException naming no parameter. */
  lemma NullTypeArgumentRaised(isStatic: bool)
    ensures var name := if isStatic then "GenericStaticMethod" else "GenericInstanceMethod";
            Resolve(NonGenericClassMethods, TargetFor(isStatic), Some(name), Some([None]), [])
              == Failure(Thrown(ArgumentNull, NoSlot))
  {
    var k := if isStatic then 14 else 13;
    Unique(k);
    var m := if isStatic then GenericStaticMethod else GenericInstanceMethod;
    assert NonGenericClassMethods[k] == m;
    SingleVerdict(TargetFor(isStatic), m.name, m, Some([None]), []);
    var none: seq<Option<Ty>> := [None];
    assert none[0].None?;
    assert BindTypeArguments(m, none) == Failure(Thrown(ArgumentNull, NoSlot));
  }

  /** `InstanceMethod1` and `StaticMethod1` with an int argument and an empty type-argument
      list are found. */
  lemma FittingMethodFound(isStatic: bool)
    ensures var m := if isStatic then StaticMethod1 else InstanceMethod1;
            Resolve(NonGenericClassMethods, TargetFor(isStatic), Some(m.name), Some([]), [Some(Valid)]) == Success(m)
  {
    var k := if isStatic then 18 else 17;
    Unique(k);
    var m := if isStatic then StaticMethod1 else InstanceMethod1;
    assert NonGenericClassMethods[k] == m;
    assert FitsAll(m.params, [Some(Valid)]);
    SingleVerdict(TargetFor(isStatic), m.name, m, Some([]), [Some(Valid)]);
  }

  /** Binding int to `GenericInstanceMethod` or `GenericStaticMethod` closes its parameter
      to int. */
  lemma BindInt(m: Method)
    requires m == GenericStaticMethod || m == GenericInstanceMethod
    ensures var b := BindTypeArguments(m, [Some(Int32)]);
            && b.Success? && b.value.name == m.name && b.value.typeParams == []
            && b.value.typeArgs == [Int32] && b.value.params == [ValueParam("t1", Int32)]
  {
    var ta: seq<Option<Ty>> := [Some(Int32)];
    assert ta[0] == Some(Int32) && Satisfies(Int32, m.typeParams[0]);
    var b := BindTypeArguments(m, ta);
    assert b.value.params[0] == m.params[0].(ty := Subst(TypeParameter(0), [Int32]));
  }

  /** A generic method given the type argument int is found bound to int, its parameter
      closed to int. */
  lemma BoundGenericMethodFound(isStatic: bool)
    ensures var name := if isStatic then "GenericStaticMethod" else "GenericInstanceMethod";
            var r := Resolve(NonGenericClassMethods, TargetFor(isStatic), Some(name), Some([Some(Int32)]), [Some(Valid)]);
            && r.Success? && r.value.name == name && r.value.typeParams == []
            && r.value.typeArgs == [Int32] && r.value.params == [ValueParam("t1", Int32)]
  {
    var k := if isStatic then 14 else 13;
    Unique(k);
    var m := if isStatic then GenericStaticMethod else GenericInstanceMethod;
    assert NonGenericClassMethods[k] == m;
    BindInt(m);
    var b := BindTypeArguments(m, [Some(Int32)]).value;
    assert FitsAll(b.params, [Some(Valid)]);
    assert Judge(m, Some([Some(Int32)]), [Some(Valid)]) == Matches(b);
    SingleVerdict(TargetFor(isStatic), m.name, m, Some([Some(Int32)]), [Some(Valid)]);
  }

  /** A null argument in a list of the right length blames `arguments`; in a list of the
      wrong length the method is simply not found. */
  lemma NullArgument(isStatic: bool)
    ensures var name := if isStatic then "StaticMethod1" else "InstanceMethod1";
            && Resolve(NonGenericClassMethods, TargetFor(isStatic), Some(name), Some([]), [None])
                 == Failure(Thrown(ArgumentNull, ArgumentsSlot))
            && Resolve(NonGenericClassMethods, TargetFor(isStatic), Some(name), Some([]),
                       [None, Some(Const(StringValue(""), StringType))])
                 == Failure(Thrown(InvalidOperation, NoSlot))
    ensures SlotName(ArgumentsSlot) == Some("arguments")
  {
    var k := if isStatic then 18 else 17;
    Unique(k);
    var m := if isStatic then StaticMethod1 else InstanceMethod1;
    assert NonGenericClassMethods[k] == m;
    var wrong := [None, Some(Const(StringValue(""), StringType))];
    SingleVerdict(TargetFor(isStatic), m.name, m, Some([]), [None]);
    SingleVerdict(TargetFor(isStatic), m.name, m, Some([]), wrong);
    assert Judge(m, Some([]), [None]) == Raises(Thrown(ArgumentNull, ArgumentsSlot));
    assert Judge(m, Some([]), wrong) == Excluded;
  }
}

=== FILE: resolver.dfy ===
/** Name-based construction of a call: `Expression.Call(instance, name, typeArgs, args)`
    and `Expression.Call(type, name, typeArgs, args)`. The method is looked up by name
    among the instance (or static) methods of the target type, type arguments are
    applied, argument shapes are matched, and the unique match is then validated like
    an explicit call. */
module Resolver {
  import opened Results
  import opened Types
  import opened Expressions
  import opened Descriptors
  import opened Errors
  import opened Validator

  /** Where the method is looked up; either reference may be null. */
  datatype Target = OnInstance(instance: Option<Expr>) | OnType(owner: Option<Ty>)

  predicate TargetGiven(target: Target) {
    match target
    case OnInstance(i) => i.Some?
    case OnType(t) => t.Some?
  }

  /** The type whose methods are searched: the static type of the instance, or the type. */
  function TargetType(target: Target): Ty
    requires TargetGiven(target)
  {
    match target
    case OnInstance(i) => i.value.ty
    case OnType(t) => t.value
  }

  predicate IsCandidate(m: Method, owner: Ty, name: string, isStatic: bool) {
    m.declaring == owner && m.name == name && m.isStatic == isStatic
  }

  /** The methods of `owner` named `name` of the requested kind, in declaration order. */
  function Candidates(arena: seq<Method>, owner: Ty, name: string, isStatic: bool): (r: seq<Method>)
    ensures forall m :: m in r <==> m in arena && IsCandidate(m, owner, name, isStatic)
    ensures |r| <= |arena|
  {
    if |arena| == 0 then []
    else (if IsCandidate(arena[0], owner, name, isStatic) then [arena[0]] else [])
         + Candidates(arena[1..], owner, name, isStatic)
  }

  /** Constructs the generic method for a correctly sized list of type arguments: a null
      entry throws ArgumentNullException, then a violated constraint throws
      ArgumentException; neither names a parameter. */
  function BindTypeArguments(m: Method, typeArgs: seq<Option<Ty>>): (r: Result<Method, Thrown>)
    requires |typeArgs| == |m.typeParams|
    ensures r == Failure(Thrown(ArgumentNull, NoSlot)) <==>
              exists i :: 0 <= i < |typeArgs| && typeArgs[i].None?
    ensures r == Failure(Thrown(ArgumentInvalid, NoSlot)) <==>
              && (forall i :: 0 <= i < |typeArgs| ==> typeArgs[i].Some?)
              && exists i :: 0 <= i < |typeArgs| && !Satisfies(typeArgs[i].value, m.typeParams[i])
    ensures r.Failure? ==> r.error.slot == NoSlot && r.error.kind != InvalidOperation
    ensures r.Success? ==>
              && r.value.typeParams == []
              && |r.value.typeArgs| == |typeArgs|
              && (forall i :: 0 <= i < |typeArgs| ==>
                    typeArgs[i] == Some(r.value.typeArgs[i]) && Satisfies(r.value.typeArgs[i], m.typeParams[i]))
              && r.value.declaring == m.declaring && r.value.name == m.name && r.value.isStatic == m.isStatic
              && |r.value.params| == |m.params|
              && (forall i :: 0 <= i < |m.params| ==>
                    r.value.params[i] == m.params[i].(ty := Subst(m.params[i].ty, r.value.typeArgs)))
  {
    if exists i :: 0 <= i < |typeArgs| && typeArgs[i].None? then Failure(Thrown(ArgumentNull, NoSlot))
    else
      var tys := seq(|typeArgs|, i requires 0 <= i < |typeArgs| => typeArgs[i].value);
      if exists i :: 0 <= i < |tys| && !Satisfies(tys[i], m.typeParams[i]) then Failure(Thrown(ArgumentInvalid, NoSlot))
      else
        var ps := seq(|m.params|, i requires 0 <= i < |m.params| => m.params[i].(ty := Subst(m.params[i].ty, tys)));
        Success(m.(typeParams := [], typeArgs := tys, params := ps, returnType := Subst(m.returnType, tys)))
  }

  /** Binding closed type arguments to a declared method leaves parameter types that mention
      no type parameter, so the bound method can be called. */
  lemma BoundParametersClosed(m: Method, typeArgs: seq<Option<Ty>>)
    requires WellFormed(m) && |typeArgs| == |m.typeParams|
    requires forall i :: 0 <= i < |typeArgs| ==> typeArgs[i].Some? && !MentionsTypeParameter(typeArgs[i].value)
    ensures var r := BindTypeArguments(m, typeArgs);
            r.Success? ==> forall i :: 0 <= i < |r.value.params| ==> !MentionsTypeParameter(r.value.params[i].ty)
  {
    var r := BindTypeArguments(m, typeArgs);
    if r.Success? {
      forall i | 0 <= i < |r.value.params| ensures !MentionsTypeParameter(r.value.params[i].ty) {
        SubstCloses(m.params[i].ty, r.value.typeArgs);
      }
    }
  }

  /** Applies the (nullable) type-argument list to a candidate. Without type arguments only
      non-generic candidates survive (no inference is attempted); with them only generic
      definitions of the same arity survive, and those are bound. */
  function ApplyTypeArguments(m: Method, typeArgs: Option<seq<Option<Ty>>>): (r: Result<Option<Method>, Thrown>)
    ensures (typeArgs.None? || |typeArgs.value| == 0) ==>
              r == Success(if |m.typeParams| == 0 then Some(m) else None)
    ensures typeArgs.Some? && |typeArgs.value| > 0 && |typeArgs.value| != |m.typeParams| ==> r == Success(None)
    ensures r.Success? && r.value.Some? ==>
              && r.value.value.typeParams == []
              && r.value.value.declaring == m.declaring && r.value.value.name == m.name
              && r.value.value.isStatic == m.isStatic
    ensures r.Failure? ==> typeArgs.Some? && 0 < |typeArgs.value| == |m.typeParams| && r.error.slot == NoSlot
    ensures typeArgs.Some? && 0 < |typeArgs.value| == |m.typeParams| ==>
              match BindTypeArguments(m, typeArgs.value)
              case Success(b) => r == Success(Some(b))
              case Failure(t) => r == Failure(t)
  {
    if typeArgs.None? || |typeArgs.value| == 0 then
      Success(if |m.typeParams| == 0 then Some(m) else None)
    else if |m.typeParams| == |typeArgs.value| then
      var bound :- BindTypeArguments(m, typeArgs.value);
      Success(Some(bound))
    else Success(None)
  }

  /** Argument i is present and reference-assignable to parameter i. */
  predicate Fits(p: Parameter, a: Option<Expr>) {
    a.Some? && ReferenceAssignable(p.ty, a.value.ty)
  }

  /** Whether the arguments match the parameters. A different count is simply no match;
      with the right count the arguments are inspected in order, a null one throwing
      ArgumentNullException("arguments") and an unassignable one ending the match. */
  function IsCompatible(m: Method, args: seq<Option<Expr>>): (r: Result<bool, Thrown>)
    ensures |m.params| != |args| ==> r == Success(false)
    ensures r == Success(true) <==>
              |m.params| == |args| && forall i :: 0 <= i < |args| ==> Fits(m.params[i], args[i])
    ensures r.Failure? ==>
              && r.error == Thrown(ArgumentNull, ArgumentsSlot)
              && |m.params| == |args|
              && exists i :: 0 <= i < |args| && args[i].None? && forall j :: 0 <= j < i ==> Fits(m.params[j], args[j])
  {
    if |m.params| != |args| then Success(false) else CompatibleFrom(m.params, args, 0)
  }

  function CompatibleFrom(ps: seq<Parameter>, args: seq<Option<Expr>>, from: nat): (r: Result<bool, Thrown>)
    requires |ps| == |args| && from <= |args|
    ensures r == Success(true) <==> forall i :: from <= i < |args| ==> Fits(ps[i], args[i])
    ensures r.Failure? ==>
              && r.error == Thrown(ArgumentNull, ArgumentsSlot)
              && exists i :: from <= i < |args| && args[i].None? && forall j :: from <= j < i ==> Fits(ps[j], args[j])
    decreases |args| - from
  {
    if from == |args| then Success(true)
    else if args[from].None? then Failure(Thrown(ArgumentNull, ArgumentsSlot))
    else if !ReferenceAssignable(ps[from].ty, args[from].value.ty) then Success(false)
    else CompatibleFrom(ps, args, from + 1)
  }

  /** One argument per parameter, each fitting its parameter. */
  predicate FitsAll(ps: seq<Parameter>, args: seq<Option<Expr>>) {
    |ps| == |args| && forall i :: 0 <= i < |args| ==> Fits(ps[i], args[i])
  }

  /** What one candidate contributes to the search. */
  datatype Verdict = Raises(thrown: Thrown) | Excluded | Matches(bound: Method)

  /** Type arguments are applied before the arguments are looked at, so a binding failure
      is raised even when the argument count is wrong. */
  function Judge(c: Method, typeArgs: Option<seq<Option<Ty>>>, args: seq<Option<Expr>>): (v: Verdict)
    ensures v.Matches? ==>
              && v.bound.declaring == c.declaring && v.bound.name == c.name && v.bound.isStatic == c.isStatic
              && v.bound.typeParams == [] && IsCompatible(v.bound, args) == Success(true)
    ensures (typeArgs.None? || |typeArgs.value| == 0) && |c.typeParams| > 0 ==> v.Excluded?
    ensures typeArgs.Some? && |typeArgs.value| > 0 && |typeArgs.value| != |c.typeParams| ==> v.Excluded?
    ensures v.Raises? ==> v.thrown.kind == ArgumentNull || v.thrown.kind == ArgumentInvalid
    ensures (typeArgs.None? || |typeArgs.value| == 0) && c.typeParams == [] && FitsAll(c.params, args) ==> v == Matches(c)
    ensures typeArgs.Some? && 0 < |typeArgs.value| == |c.typeParams| ==>
              match BindTypeArguments(c, typeArgs.value)
              case Failure(t) => v == Raises(t)
              case Success(b) => FitsAll(b.params, args) ==> v == Matches(b)
  {
    match ApplyTypeArguments(c, typeArgs)
    case Failure(t) => Raises(t)
    case Success(None) => Excluded
    case Success(Some(b)) =>
      match IsCompatible(b, args)
      case Failure(t) => Raises(t)
      case Success(ok) => if ok then Matches(b) else Excluded
  }

  /** The verdicts of the candidates, in declaration order. */
  function Verdicts(cands: seq<Method>, typeArgs: Option<seq<Option<Ty>>>, args: seq<Option<Expr>>): (vs: seq<Verdict>)
    ensures |vs| == |cands|
    ensures forall i :: 0 <= i < |cands| ==> vs[i] == Judge(cands[i], typeArgs, args)
  {
    seq(|cands|, i requires 0 <= i < |cands| => Judge(cands[i], typeArgs, args))
  }

  /** Visits the verdicts in order; the first exception propagates and a second match
      ends the search as ambiguous. */
  function Scan(vs: seq<Verdict>, found: Option<Method>): (r: Result<Option<Method>, Thrown>)
    ensures r.Success? && r.value.Some? ==> r.value == found || Matches(r.value.value) in vs
    ensures r.Success? && found.Some? ==> r.value == found
    ensures r.Success? && found.None? && r.value.None? ==> forall i :: 0 <= i < |vs| ==> vs[i].Excluded?
    ensures r.Failure? ==> Raises(r.error) in vs || r.error == Thrown(InvalidOperation, NoSlot)
  {
    if |vs| == 0 then Success(found)
    else match vs[0]
      case Raises(t) => Failure(t)
      case Excluded => Scan(vs[1..], found)
      case Matches(b) =>
        if found.Some? then Failure(Thrown(InvalidOperation, NoSlot))
        else Scan(vs[1..], Some(b))
  }

  /** No candidate raises. */
  ghost predicate Clean(vs: seq<Verdict>) {
    forall i :: 0 <= i < |vs| ==> !vs[i].Raises?
  }

  /** No candidate matches. */
  ghost predicate NoMatch(vs: seq<Verdict>) {
    forall i :: 0 <= i < |vs| ==> !vs[i].Matches?
  }

  /** Exactly one candidate matches, and it binds to `m`. */
  ghost predicate UniqueMatch(vs: seq<Verdict>, m: Method) {
    exists i :: 0 <= i < |vs| && vs[i] == Matches(m) &&
      forall j :: 0 <= j < |vs| && j != i ==> !vs[j].Matches?
  }

  /** Resolves the method of a by-name call. */
  function Resolve(arena: seq<Method>, target: Target, name: Option<string>,
                   typeArgs: Option<seq<Option<Ty>>>, args: seq<Option<Expr>>): (r: Result<Method, Thrown>)
    ensures target == OnInstance(None) ==> r == Failure(Thrown(ArgumentNull, InstanceSlot))
    ensures target == OnType(None) ==> r == Failure(Thrown(ArgumentNull, TypeSlot))
    ensures TargetGiven(target) && name.None? ==> r == Failure(Thrown(ArgumentNull, MethodNameSlot))
    ensures TargetGiven(target) && name.Some? &&
            Candidates(arena, TargetType(target), name.value, target.OnType?) == [] ==>
              r == Failure(Thrown(InvalidOperation, NoSlot))
    ensures r.Success? ==>
              && TargetGiven(target) && name.Some?
              && r.value.name == name.value
              && r.value.declaring == TargetType(target)
              && r.value.isStatic == target.OnType?
              && r.value.typeParams == []
              && IsCompatible(r.value, args) == Success(true)
  {
    if !TargetGiven(target) then
      Failure(Thrown(ArgumentNull, if target.OnInstance? then InstanceSlot else TypeSlot))
    else if name.None? then Failure(Thrown(ArgumentNull, MethodNameSlot))
    else
      var cands := Candidates(arena, TargetType(target), name.value, target.OnType?);
      var found :- Scan(Verdicts(cands, typeArgs, args), None);
      if found.None? then Failure(Thrown(InvalidOperation, NoSlot))
      else
        MatchComesFromCandidate(cands, typeArgs, args, found.value);
        Success(found.value)
  }

  /** A matching verdict belongs to a candidate with the same declaring type, name and kind. */
  lemma MatchComesFromCandidate(cands: seq<Method>, typeArgs: Option<seq<Option<Ty>>>, args: seq<Option<Expr>>, m: Method)
    requires Matches(m) in Verdicts(cands, typeArgs, args)
    ensures exists c :: c in cands && c.declaring == m.declaring && c.name == m.name && c.isStatic == m.isStatic
    ensures m.typeParams == [] && IsCompatible(m, args) == Success(true)
  {
    var vs := Verdicts(cands, typeArgs, args);
    var i :| 0 <= i < |vs| && vs[i] == Matches(m);
    assert cands[i] in cands;
  }

  /** Once a match is held, the search either fails or returns that match, and it returns
      it exactly when the rest is clean and matches nothing. */
  lemma {:induction false} ScanAfterMatch(vs: seq<Verdict>, m0: Method)
    ensures Scan(vs, Some(m0)).Success? ==> Scan(vs, Some(m0)) == Success(Some(m0))
    ensures Scan(vs, Some(m0)) == Success(Some(m0)) <==> Clean(vs) && NoMatch(vs)
  {
    if |vs| > 0 {
      ScanAfterMatch(vs[1..], m0);
      assert forall i :: 0 < i < |vs| ==> vs[i] == vs[1..][i - 1];
    }
  }

  /** The search finds nothing exactly when no verdict raises and none matches. */
  lemma {:induction false} ScanFindsNothing(vs: seq<Verdict>)
    ensures Scan(vs, None) == Success(None) <==> Clean(vs) && NoMatch(vs)
  {
    if |vs| > 0 {
      assert forall i :: 0 < i < |vs| ==> vs[i] == vs[1..][i - 1];
      match vs[0]
      case Raises(_) =>
      case Excluded => ScanFindsNothing(vs[1..]);
      case Matches(b) => ScanAfterMatch(vs[1..], b);
    }
  }

  /** The reference meaning of the search: it finds `m` exactly when no verdict raises and
      exactly one verdict matches, binding to `m`. */
  lemma {:induction false} ScanFindsUniqueMatch(vs: seq<Verdict>, m: Method)
    ensures Scan(vs, None) == Success(Some(m)) <==> Clean(vs) && UniqueMatch(vs, m)
  {
    if |vs| > 0 {
      var tail := vs[1..];
      assert forall i :: 0 < i < |vs| ==> vs[i] == tail[i - 1];
      match vs[0]
      case Raises(_) =>
        assert !Clean(vs);
      case Excluded =>
        ScanFindsUniqueMatch(tail, m);
        assert Clean(vs) <==> Clean(tail);
        if UniqueMatch(tail, m) {
          var i :| 0 <= i < |tail| && tail[i] == Matches(m) &&
            forall j :: 0 <= j < |tail| && j != i ==> !tail[j].Matches?;
          assert vs[i + 1] == Matches(m);
          assert forall j :: 0 <= j < |vs| && j != i + 1 ==> !vs[j].Matches?;
        }
        if UniqueMatch(vs, m) {
          var i :| 0 <= i < |vs| && vs[i] == Matches(m) &&
            forall j :: 0 <= j < |vs| && j != i ==> !vs[j].Matches?;
          assert tail[i - 1] == Matches(m);
          assert forall j :: 0 <= j < |tail| && j != i - 1 ==> !tail[j].Matches? by {
            forall j | 0 <= j < |tail| && j != i - 1
              ensures !tail[j].Matches?
            {
              assert tail[j] == vs[j + 1];
            }
          }
        }
      case Matches(b) =>
        ScanAfterMatch(tail, b);
        if Clean(tail) && NoMatch(tail) && m == b {
          assert forall j :: 0 <= j < |vs| && j != 0 ==> !vs[j].Matches?;
        }
        if Clean(vs) && UniqueMatch(vs, m) {
          var i :| 0 <= i < |vs| && vs[i] == Matches(m) &&
            forall j :: 0 <= j < |vs| && j != i ==> !vs[j].Matches?;
          assert i == 0;
          assert Clean(tail);
          assert NoMatch(tail);
        }
    }
  }

  /** The first verdict that raises decides the outcome when every verdict before it was
      an exclusion, whatever the later candidates would do. */
  lemma {:induction false} ScanFirstRaise(vs: seq<Verdict>, found: Option<Method>, i: nat, t: Thrown)
    requires i < |vs| && vs[i] == Raises(t)
    requires forall j :: 0 <= j < i ==> vs[j].Excluded?
    ensures Scan(vs, found) == Failure(t)
  {
    if i > 0 {
      assert vs[0].Excluded?;
      ScanFirstRaise(vs[1..], found, i - 1, t);
    }
  }

  /** By-name resolution succeeds with `m` exactly when both references are given, no
      candidate raises and exactly one candidate matches, binding to `m`. */
  lemma ResolveSucceedsIff(arena: seq<Method>, target: Target, name: Option<string>,
                           typeArgs: Option<seq<Option<Ty>>>, args: seq<Option<Expr>>, m: Method)
    ensures Resolve(arena, target, name, typeArgs, args) == Success(m) <==>
              && TargetGiven(target) && name.Some?
              && var cands := Candidates(arena, TargetType(target), name.value, target.OnType?);
                 Clean(Verdicts(cands, typeArgs, args)) && UniqueMatch(Verdicts(cands, typeArgs, args), m)
  {
    if TargetGiven(target) && name.Some? {
      var cands := Candidates(arena, TargetType(target), name.value, target.OnType?);
      ScanFindsUniqueMatch(Verdicts(cands, typeArgs, args), m);
    }
  }

  /** Resolution reports "not found" (InvalidOperationException) when nothing raises and
      no candidate matches: an unknown name, a wrong type-argument count, type arguments
      for a non-generic method, or arguments of the wrong count or types. */
  lemma ResolveNotFound(arena: seq<Method>, target: Target, name: string,
                        typeArgs: Option<seq<Option<Ty>>>, args: seq<Option<Expr>>)
    requires TargetGiven(target)
    requires var cands := Candidates(arena, TargetType(target), name, target.OnType?);
             Clean(Verdicts(cands, typeArgs, args)) && NoMatch(Verdicts(cands, typeArgs, args))
    ensures Resolve(arena, target, Some(name), typeArgs, args) == Failure(Thrown(InvalidOperation, NoSlot))
  {
    var cands := Candidates(arena, TargetType(target), name, target.OnType?);
    ScanFindsNothing(Verdicts(cands, typeArgs, args));
  }

  /** A candidate whose type arguments cannot be bound (a null entry, a violated
      constraint) makes resolution throw that binding exception, before and regardless of
      the arguments, provided every earlier candidate was excluded. */
  lemma ResolveBindingFailure(arena: seq<Method>, target: Target, name: string,
                              typeArgs: Option<seq<Option<Ty>>>, args: seq<Option<Expr>>, i: nat)
    requires TargetGiven(target)
    requires var cands := Candidates(arena, TargetType(target), name, target.OnType?);
             && i < |cands|
             && ApplyTypeArguments(cands[i], typeArgs).Failure?
             && forall j :: 0 <= j < i ==> Judge(cands[j], typeArgs, args).Excluded?
    ensures var cands := Candidates(arena, TargetType(target), name, target.OnType?);
            Resolve(arena, target, Some(name), typeArgs, args) == Failure(ApplyTypeArguments(cands[i], typeArgs).error)
  {
    var cands := Candidates(arena, TargetType(target), name, target.OnType?);
    ScanFirstRaise(Verdicts(cands, typeArgs, args), None, i, ApplyTypeArguments(cands[i], typeArgs).error);
  }

  /** A method that is the only candidate of its name and kind, takes no type arguments and
      fits the arguments is found. */
  lemma ResolveSingleFit(arena: seq<Method>, target: Target, name: string,
                         typeArgs: Option<seq<Option<Ty>>>, args: seq<Option<Expr>>, c: Method)
    requires TargetGiven(target)
    requires Candidates(arena, TargetType(target), name, target.OnType?) == [c]
    requires (typeArgs.None? || |typeArgs.value| == 0) && c.typeParams == [] && FitsAll(c.params, args)
    ensures Resolve(arena, target, Some(name), typeArgs, args) == Success(c)
  {
    var vs := Verdicts([c], typeArgs, args);
    assert vs == [Matches(c)];
    assert vs[1..] == [];
    assert Scan(vs[1..], Some(c)) == Success(Some(c));
  }

  /** Name-based construction: resolve, then validate the resolved method like an explicit
      call with the instance as receiver (none for a type target). */
  function BuildCallByName(arena: seq<Method>, target: Target, name: Option<string>,
                           typeArgs: Option<seq<Option<Ty>>>, args: seq<Option<Expr>>): (r: Result<CallNode, Thrown>)
    ensures r.Success? ==>
              && name.Some? && r.value.callee.name == name.value
              && r.value.receiver == (if target.OnInstance? then target.instance else None)
              && |r.value.args| == |args|
              && Resolve(arena, target, name, typeArgs, args) == Success(r.value.callee)
  {
    var m :- Resolve(arena, target, name, typeArgs, args);
    Validate(Some(m), if target.OnInstance? then target.instance else None, args)
  }

  /** After a successful resolution on a closed type, validation can only object to an
      argument that cannot be read: the receiver, the count, nullness and assignability
      were all settled by the resolver. */
  lemma ResolvedCallFailsOnlyOnUnreadableArgument(arena: seq<Method>, target: Target, name: Option<string>,
                                                  typeArgs: Option<seq<Option<Ty>>>, args: seq<Option<Expr>>)
    requires Resolve(arena, target, name, typeArgs, args).Success?
    requires !Resolve(arena, target, name, typeArgs, args).value.declaringIsOpen
    ensures var r := BuildCallByName(arena, target, name, typeArgs, args);
            r.Success? || exists i :: 0 <= i < |args| && r == Failure(Thrown(ArgumentInvalid, ArgSlot(i))) &&
                                      args[i].Some? && !CanRead(args[i].value)
  {
    var m := Resolve(arena, target, name, typeArgs, args).value;
    var recv := if target.OnInstance? then target.instance else None;
    assert ReceiverPasses(Some(m), recv);
    var r := Validate(Some(m), recv, args);
    if r.Failure? {
      var f := FindFault(m.params, args, 0);
      assert f.Some?;
      assert FirstFault(m.params, args, f.value.0, f.value.1);
      assert Fits(m.params[f.value.0], args[f.value.0]);
    }
  }
}

=== FILE: results.dfy ===
/** Failure-compatible wrappers used throughout the model: a nullable slot (`Option`)
    and the outcome of an operation that can throw (`Result`). */
module Results {

  /** A value that may be absent; stands for a .NET reference that may be null. */
  datatype Option<+T> = None | Some(value: T)

  /** Either a value or the exception raised while computing it. */
  datatype Result<+T, +E> = Success(value: T) | Failure(error: E) {

    predicate IsFailure() {
      Failure?
    }

    function PropagateFailure<U>(): Result<U, E>
      requires Failure?
    {
      Failure(error)
    }

    function Extract(): T
      requires Success?
    {
      value
    }
  }
}

=== FILE: store.dfy ===
/** Evaluation of operands over a store, and the addressability analysis: which storage
    location, if any, an operand denotes. A location other than `Temporary` is storage
    that a callee may mutate in place; `Temporary` means the operand yields a copy. */
module Store {
  import opened Results
  import opened Types
  import opened Values
  import opened Expressions

  /** The parameters of the running lambda invocation, and the heap. */
  datatype State = State(env: map<string, Value>, heap: Heap)

  /** Runtime exceptions. `IllTyped` stands for a value of the wrong shape reaching an
      operation, which a validated tree over well-typed values never causes. */
  datatype Fault =
    | NullReference
    | IndexOutOfRange
    | ArgumentOutOfRange
    | InvalidCast
    | NotReadable
    | UnboundParameter
    | IllTyped

  datatype Location =
    | Local(name: string)                              // a parameter of the invocation
    | ObjectField(obj: Address, field: string)         // a writable field of a class instance
    | ArrayElement(array: Address, indices: seq<int>)  // an element of an array of any rank
    | Unboxed(box: Address)                            // the value inside a box
    | ListItem(list: Address, index: int)              // an element of a List, reached only by its setter
    | Temporary                                        // not addressable: a copy

  predicate IsHeapLocation(loc: Location) {
    loc.ObjectField? || loc.ArrayElement? || loc.Unboxed? || loc.ListItem?
  }

  function AsInts(vs: seq<Value>): (r: Option<seq<int>>)
    ensures r.Some? ==> |r.value| == |vs| && forall i :: 0 <= i < |vs| ==> vs[i] == IntValue(r.value[i])
    ensures r.None? ==> exists i :: 0 <= i < |vs| && !vs[i].IntValue?
  {
    if forall i :: 0 <= i < |vs| ==> vs[i].IntValue? then Some(seq(|vs|, i requires 0 <= i < |vs| => vs[i].i))
    else None
  }

  // ---- reading values ----

  function FieldOf(ov: Value, f: string, h: Heap): Result<Value, Fault> {
    match ov
    case Null => Failure(NullReference)
    case Reference(a) =>
      if a in h && h[a].Instance? && f in h[a].fields then Success(h[a].fields[f]) else Failure(IllTyped)
    case _ => Failure(IllTyped)
  }

  function ElementOf(av: Value, ix: seq<Value>, h: Heap): Result<Value, Fault> {
    match av
    case Null => Failure(NullReference)
    case Reference(a) =>
      if a !in h || !h[a].ArrayObject? || AsInts(ix).None? then Failure(IllTyped)
      else if AsInts(ix).value in h[a].elements then Success(h[a].elements[AsInts(ix).value])
      else Failure(IndexOutOfRange)
    case _ => Failure(IllTyped)
  }

  /** Unboxing checks that the box holds exactly the requested value type. */
  function UnboxOf(bv: Value, ty: Ty, h: Heap): Result<Value, Fault> {
    match bv
    case Null => Failure(NullReference)
    case Reference(a) =>
      if a in h && h[a].Box? && BoxedType(h[a].content) == ty then Success(h[a].content) else Failure(InvalidCast)
    case _ => Failure(InvalidCast)
  }

  /** The getter of a property or indexer, run on a copy of the owner. */
  function Get(acc: Accessor, ov: Value, ix: seq<Value>, h: Heap): Result<Value, Fault> {
    match acc
    case FieldBacked(f) => FieldOf(ov, f, h)
    case StructState => if ov.MutableValue? then Success(IntValue(ov.x)) else Failure(IllTyped)
    case ListElement =>
      (match ov
       case Null => Failure(NullReference)
       case Reference(a) =>
         if a !in h || !h[a].ListObject? || |ix| != 1 || !ix[0].IntValue? then Failure(IllTyped)
         else if 0 <= ix[0].i < |h[a].items| then Success(h[a].items[ix[0].i])
         else Failure(ArgumentOutOfRange)
       case _ => Failure(IllTyped))
    case SetOnly => Failure(NotReadable)
  }

  /** The value of an operand; evaluation has no side effects. An operand the validator
      rejects as unreadable never yields a value. */
  function Eval(e: Expr, st: State): (r: Result<Value, Fault>)
    ensures r.Success? ==> CanRead(e)
    ensures e.Param? ==> (r.Success? <==> e.name in st.env)
    decreases e
  {
    match e
    case Param(n, _) => if n in st.env then Success(st.env[n]) else Failure(UnboundParameter)
    case Const(v, _) => Success(v)
    case FieldAccess(o, f, _, _) =>
      var ov :- Eval(o, st);
      FieldOf(ov, f, st.heap)
    case LiteralField(_, _, v, _) => Success(v)
    case Property(t, _, _, acc, idx, _) =>
      var ov :- if t.Some? then Eval(t.value, st) else Success(Null);
      var ix :- EvalAll(idx, st);
      Get(acc, ov, ix, st.heap)
    case ArrayIndex(a, idx, _, _) =>
      var av :- Eval(a, st);
      var ix :- EvalAll(idx, st);
      ElementOf(av, ix, st.heap)
    case Unbox(x, ty) =>
      var bv :- Eval(x, st);
      UnboxOf(bv, ty, st.heap)
  }

  /** The values of operands, left to right; the first failure propagates. */
  function EvalAll(es: seq<Expr>, st: State): (r: Result<seq<Value>, Fault>)
    ensures r.Success? ==> |r.value| == |es|
    decreases es
  {
    if |es| == 0 then Success([])
    else
      var v :- Eval(es[0], st);
      var vs :- EvalAll(es[1..], st);
      Success([v] + vs)
  }

  // ---- storage locations ----

  function Read(loc: Location, st: State): Result<Value, Fault> {
    match loc
    case Local(n) => if n in st.env then Success(st.env[n]) else Failure(UnboundParameter)
    case ObjectField(a, f) =>
      if a in st.heap && st.heap[a].Instance? && f in st.heap[a].fields then Success(st.heap[a].fields[f])
      else Failure(IllTyped)
    case ArrayElement(a, ix) =>
      if a in st.heap && st.heap[a].ArrayObject? && ix in st.heap[a].elements then Success(st.heap[a].elements[ix])
      else Failure(IndexOutOfRange)
    case Unboxed(a) =>
      if a in st.heap && st.heap[a].Box? then Success(st.heap[a].content) else Failure(IllTyped)
    case ListItem(a, i) =>
      if a in st.heap && st.heap[a].ListObject? && 0 <= i < |st.heap[a].items| then Success(st.heap[a].items[i])
      else Failure(ArgumentOutOfRange)
    case Temporary => Failure(IllTyped)
  }

  /** Stores `v` at `loc`; a location that does not exist is left alone. Only `loc`
      changes, and writing a heap location leaves the parameters alone. */
  function Write(loc: Location, v: Value, st: State): (r: State)
    ensures Read(loc, st).Success? ==> Read(loc, r) == Success(v)
    ensures forall other :: other != loc ==> Read(other, r) == Read(other, st)
    ensures IsHeapLocation(loc) ==> r.env == st.env
    ensures loc.Local? ==> r.heap == st.heap
    ensures r.heap.Keys == st.heap.Keys
  {
    match loc
    case Local(n) => if n in st.env then st.(env := st.env[n := v]) else st
    case ObjectField(a, f) =>
      if a in st.heap && st.heap[a].Instance? && f in st.heap[a].fields then
        st.(heap := st.heap[a := st.heap[a].(fields := st.heap[a].fields[f := v])])
      else st
    case ArrayElement(a, ix) =>
      if a in st.heap && st.heap[a].ArrayObject? && ix in st.heap[a].elements then
        st.(heap := st.heap[a := st.heap[a].(elements := st.heap[a].elements[ix := v])])
      else st
    case Unboxed(a) =>
      if a in st.heap && st.heap[a].Box? then st.(heap := st.heap[a := Box(v)]) else st
    case ListItem(a, i) =>
      if a in st.heap && st.heap[a].ListObject? && 0 <= i < |st.heap[a].items| then
        st.(heap := st.heap[a := st.heap[a].(items := st.heap[a].items[i := v])])
      else st
    case Temporary => st
  }

  /** Writing twice leaves the second value; writing back what is there changes nothing. */
  lemma WriteTwice(loc: Location, v: Value, w: Value, st: State)
    ensures Write(loc, w, Write(loc, v, st)) == Write(loc, w, st)
  {
    match loc
    case Local(n) =>
    case ObjectField(a, f) =>
      if Read(loc, st).Success? {
        assert st.heap[a].fields[f := v][f := w] == st.heap[a].fields[f := w];
      }
    case ArrayElement(a, ix) =>
      if Read(loc, st).Success? {
        assert st.heap[a].elements[ix := v][ix := w] == st.heap[a].elements[ix := w];
      }
    case Unboxed(a) =>
    case ListItem(a, i) =>
      if Read(loc, st).Success? {
        assert st.heap[a].items[i := v][i := w] == st.heap[a].items[i := w];
      }
    case Temporary =>
  }

  lemma WriteCurrent(loc: Location, st: State)
    requires Read(loc, st).Success?
    ensures Write(loc, Read(loc, st).value, st) == st
  {
    match loc
    case Local(n) =>
    case ObjectField(a, f) =>
      assert st.heap[a].fields[f := st.heap[a].fields[f]] == st.heap[a].fields;
    case ArrayElement(a, ix) =>
      assert st.heap[a].elements[ix := st.heap[a].elements[ix]] == st.heap[a].elements;
    case Unboxed(a) =>
      assert st.heap[a := Box(st.heap[a].content)] == st.heap;
    case ListItem(a, i) =>
      assert st.heap[a].items[i := st.heap[a].items[i]] == st.heap[a].items;
    case Temporary =>
  }

  /** The operand shapes that denote storage: parameters, writable fields, array elements
      and unboxed values. */
  predicate Addressable(e: Expr) {
    e.Param? || (e.FieldAccess? && !e.readOnly) || e.ArrayIndex? || e.Unbox?
  }

  /** The addressability analysis. Parameters, writable fields, array elements (either
      factory, any rank) and unboxed values are storage; everything else (properties,
      indexers, readonly and literal fields, constants) is a temporary copy. */
  function Locate(e: Expr, st: State): (r: Result<Location, Fault>)
    ensures r.Success? ==> (r.value.Temporary? <==> !Addressable(e))
    ensures r.Success? && !r.value.Temporary? ==>
              (IsHeapLocation(r.value) || r.value.Local?) && Eval(e, st) == Read(r.value, st) && Eval(e, st).Success?
  {
    match e
    case Param(n, _) => if n in st.env then Success(Local(n)) else Failure(UnboundParameter)
    case FieldAccess(o, f, readOnly, _) =>
      if readOnly then Success(Temporary)
      else
        var ov :- Eval(o, st);
        if ov.Null? then Failure(NullReference)
        else if ov.Reference? && ov.address in st.heap && st.heap[ov.address].Instance? &&
                f in st.heap[ov.address].fields then Success(ObjectField(ov.address, f))
        else Failure(IllTyped)
    case ArrayIndex(a, idx, _, _) =>
      var av :- Eval(a, st);
      var ix :- EvalAll(idx, st);
      if av.Null? then Failure(NullReference)
      else if !av.Reference? || av.address !in st.heap || !st.heap[av.address].ArrayObject? || AsInts(ix).None? then
        Failure(IllTyped)
      else if AsInts(ix).value in st.heap[av.address].elements then Success(ArrayElement(av.address, AsInts(ix).value))
      else Failure(IndexOutOfRange)
    case Unbox(x, ty) =>
      var bv :- Eval(x, st);
      if bv.Null? then Failure(NullReference)
      else if bv.Reference? && bv.address in st.heap && st.heap[bv.address].Box? &&
              BoxedType(st.heap[bv.address].content) == ty then Success(Unboxed(bv.address))
      else Failure(InvalidCast)
    case _ => Success(Temporary)
  }

  /** The analysis fails exactly where evaluation of addressable operands fails, and with the
      same exception: locating storage raises nothing that reading it would not. */
  lemma LocateAgreesWithEval(e: Expr, st: State)
    ensures Locate(e, st).Failure? ==> Eval(e, st) == Failure(Locate(e, st).error)
    ensures Addressable(e) && Eval(e, st).Success? ==> Locate(e, st).Success?
  {
  }

  /** The setter of a property or indexer, run on the owner. A struct owner's setter
      mutates the owner's storage, so the change persists only when the owner is
      addressable; a class owner's setter mutates the shared object. */
  function Set(acc: Accessor, ownerLoc: Location, ov: Value, ix: seq<Value>, v: Value, st: State): (r: Result<State, Fault>)
    ensures r.Success? ==> r.value.heap.Keys == st.heap.Keys
    ensures acc.SetOnly? ==> r == Success(st)
    ensures acc.StructState? && r.Success? ==> v.IntValue? && r.value == Write(ownerLoc, MutableValue(v.i), st)
    ensures acc.FieldBacked? && r.Success? ==>
              ov.Reference? && Read(ObjectField(ov.address, acc.field), st).Success? &&
              r.value == Write(ObjectField(ov.address, acc.field), v, st)
    ensures acc.ListElement? && r.Success? ==>
              ov.Reference? && |ix| == 1 && ix[0].IntValue? && Read(ListItem(ov.address, ix[0].i), st).Success? &&
              r.value == Write(ListItem(ov.address, ix[0].i), v, st)
    ensures acc.ListElement? && ov.Reference? && |ix| == 1 && ix[0].IntValue? ==>
              (r.Success? <==> Read(ListItem(ov.address, ix[0].i), st).Success?)
  {
    match acc
    case FieldBacked(f) =>
      (match ov
       case Null => Failure(NullReference)
       case Reference(a) =>
         if a in st.heap && st.heap[a].Instance? && f in st.heap[a].fields then Success(Write(ObjectField(a, f), v, st))
         else Failure(IllTyped)
       case _ => Failure(IllTyped))
    case StructState =>
      if ov.MutableValue? && v.IntValue? then Success(Write(ownerLoc, MutableValue(v.i), st)) else Failure(IllTyped)
    case ListElement =>
      (match ov
       case Null => Failure(NullReference)
       case Reference(a) =>
         if a !in st.heap || !st.heap[a].ListObject? || |ix| != 1 || !ix[0].IntValue? then Failure(IllTyped)
         else if 0 <= ix[0].i < |st.heap[a].items| then Success(Write(ListItem(a, ix[0].i), v, st))
         else Failure(ArgumentOutOfRange)
       case _ => Failure(IllTyped))
    case SetOnly => Success(st)
  }
}

=== FILE: text.dfy ===
/** Decimal rendering of integers and joining of rendered parts, as used by the
    display renderer and by the parameter names of argument slots. */
module Text {

  predicate IsDigit(c: char) {
    '0' <= c <= '9'
  }

  function DigitChar(d: nat): (c: char)
    requires d < 10
    ensures IsDigit(c)
    ensures c as int - '0' as int == d
  {
    ['0', '1', '2', '3', '4', '5', '6', '7', '8', '9'][d]
  }

  /** Shortest decimal text of `n`, most significant digit first. */
  function NatToString(n: nat): (s: string)
    ensures |s| >= 1
    ensures forall i :: 0 <= i < |s| ==> IsDigit(s[i])
    ensures n < 10 <==> |s| == 1
    decreases n
  {
    if n < 10 then [DigitChar(n)] else NatToString(n / 10) + [DigitChar(n % 10)]
  }

  /** Decimal text of a signed integer: a leading '-' for negatives. */
  function IntToString(i: int): (s: string)
    ensures |s| >= 1
    ensures i < 0 <==> s[0] == '-'
  {
    if i < 0 then "-" + NatToString(-i) else NatToString(i)
  }

  /** Value of a string of decimal digits, the reading that `NatToString` is written for. */
  function ParseNat(s: string): nat
    requires forall i :: 0 <= i < |s| ==> IsDigit(s[i])
  {
    if |s| == 0 then 0
    else ParseNat(s[..|s| - 1]) * 10 + DigitValue(s[|s| - 1])
  }

  function DigitValue(c: char): (d: nat)
    requires IsDigit(c)
    ensures d < 10
  {
    c as int - '0' as int
  }

  /** Reading back the rendered digits gives the number that was rendered. */
  lemma {:induction false} ParseNatToString(n: nat)
    ensures ParseNat(NatToString(n)) == n
    decreases n
  {
    var s := NatToString(n);
    if n >= 10 {
      ParseNatToString(n / 10);
      assert s[..|s| - 1] == NatToString(n / 10);
    }
  }

  /** Rendering is injective: distinct numbers never share a text. */
  lemma NatToStringInjective(m: nat, n: nat)
    requires NatToString(m) == NatToString(n)
    ensures m == n
  {
    ParseNatToString(m);
    ParseNatToString(n);
  }

  /** The parts in order, with `sep` between consecutive parts. */
  function Join(parts: seq<string>, sep: string): (s: string)
    ensures |parts| == 0 ==> s == ""
    ensures |parts| == 1 ==> s == parts[0]
    ensures |s| >= (if |parts| == 0 then 0 else (|parts| - 1) * |sep|)
  {
    if |parts| == 0 then ""
    else if |parts| == 1 then parts[0]
    else parts[0] + sep + Join(parts[1..], sep)
  }

  /** Appending one more part to a non-empty list adds exactly the separator and that part
      at the end: the separator goes between parts, never before the first or after the last. */
  lemma {:induction false} JoinSnoc(parts: seq<string>, x: string, sep: string)
    requires |parts| >= 1
    ensures Join(parts + [x], sep) == Join(parts, sep) + sep + x
    decreases |parts|
  {
    var all := parts + [x];
    assert all[1..] == parts[1..] + [x];
    if |parts| > 1 {
      JoinSnoc(parts[1..], x, sep);
    } else {
      assert all[1..] == [x];
    }
  }
}

=== FILE: types.dfy ===
/** The small fragment of the .NET type system the call machinery consults:
    value versus reference types, reference assignability, the instance-type rule
    for receivers, generic constraints and substitution of type parameters. */
module Types {

  datatype Ty =
    | Int32
    | UInt32
    | StringType
    | ObjectType
    | TypeType                       // System.Type, the result of GetType
    | VoidType
    | Struct(name: string)           // a user value type such as Mutable
    | Class(name: string)            // a user reference type such as Wrapper<Mutable>
    | ArrayOf(element: Ty, rank: nat)
    | TypeParameter(position: nat)   // the position-th generic parameter of a method

  predicate IsValueType(t: Ty) {
    t.Int32? || t.UInt32? || t.VoidType? || t.Struct?
  }

  predicate IsReferenceType(t: Ty) {
    t.StringType? || t.ObjectType? || t.TypeType? || t.Class? || t.ArrayOf?
  }

  /** An expression of static type `source` may be passed where `target` is expected
      without a conversion node: the same type, or a reference type widened to object.
      An int is not reference-assignable to object (that needs boxing). */
  predicate ReferenceAssignable(target: Ty, source: Ty) {
    target == source || (target == ObjectType && IsReferenceType(source))
  }

  /** A receiver of static type `t` may be used for an instance method declared on
      `declaring`: the same type, or any type for a method declared on object. */
  predicate InstanceCompatible(declaring: Ty, t: Ty) {
    t == declaring || declaring == ObjectType
  }

  datatype Constraint = Unconstrained | ValueTypeConstraint   // `where T : struct`

  predicate Satisfies(t: Ty, c: Constraint) {
    match c
    case Unconstrained => true
    case ValueTypeConstraint => IsValueType(t)
  }

  /** Replaces generic parameter i by `args[i]`. */
  function Subst(t: Ty, args: seq<Ty>): Ty {
    match t
    case TypeParameter(i) => if i < |args| then args[i] else t
    case ArrayOf(e, r) => ArrayOf(Subst(e, args), r)
    case _ => t
  }

  predicate MentionsTypeParameter(t: Ty) {
    match t
    case TypeParameter(_) => true
    case ArrayOf(e, _) => MentionsTypeParameter(e)
    case _ => false
  }

  /** Substitution of a full argument list leaves no generic parameter below the list's length. */
  lemma {:induction false} SubstCloses(t: Ty, args: seq<Ty>)
    requires forall i :: 0 <= i < |args| ==> !MentionsTypeParameter(args[i])
    requires ParametersBelow(t, |args|)
    ensures !MentionsTypeParameter(Subst(t, args))
  {
    match t
    case ArrayOf(e, r) => SubstCloses(e, args);
    case _ =>
  }

  predicate ParametersBelow(t: Ty, n: nat) {
    match t
    case TypeParameter(i) => i < n
    case ArrayOf(e, _) => ParametersBelow(e, n)
    case _ => true
  }

  /** The type's name as the expression printer shows it. */
  function TypeName(t: Ty): string {
    match t
    case Int32 => "Int32"
    case UInt32 => "UInt32"
    case StringType => "String"
    case ObjectType => "Object"
    case TypeType => "Type"
    case VoidType => "Void"
    case Struct(n) => n
    case Class(n) => n
    case ArrayOf(e, r) => TypeName(e) + "[" + Commas(if r == 0 then 0 else r - 1) + "]"
    case TypeParameter(_) => "T"
  }

  function Commas(n: nat): string {
    if n == 0 then "" else "," + Commas(n - 1)
  }
}

=== FILE: validation_cases.dfy ===
/** The exceptions the call tests expect from explicit-method construction, stated for
    every argument list rather than the handful the tests spell out. */
module ValidationCases {
  import opened Results
  import opened Text
  import opened Types
  import opened Values
  import opened Expressions
  import opened Descriptors
  import opened Errors
  import opened Validator
  import opened Fixtures

  /** `n` copies of the valid constant 5. */
  function Valids(n: nat): (args: seq<Option<Expr>>)
    ensures |args| == n && forall i :: 0 <= i < n ==> args[i] == Some(Valid)
  {
    seq(n, _ => Some(Valid))
  }

  /** A null method, a method of an open generic type and a generic method definition are
      rejected first, blaming `method`, whatever the receiver and arguments. */
  lemma InvalidMethodBlamesMethod(receiver: Option<Expr>, args: seq<Option<Expr>>)
    ensures Validate(None, receiver, args) == Failure(Thrown(ArgumentNull, MethodSlot))
    ensures Validate(Some(OpenNonGenericMethod), receiver, args) == Failure(Thrown(ArgumentInvalid, MethodSlot))
    ensures Validate(Some(GenericMethod), receiver, args) == Failure(Thrown(ArgumentInvalid, MethodSlot))
    ensures SlotName(MethodSlot) == Some("method")
  {
  }

  /** An instance method without a receiver blames `method`, whatever the arguments. */
  lemma MissingInstanceBlamesMethod(args: seq<Option<Expr>>)
    ensures Validate(Some(InstanceMethod), None, args) == Failure(Thrown(ArgumentInvalid, MethodSlot))
  {
  }

  /** A static method with a receiver blames `instance`, whatever the arguments. */
  lemma StaticWithInstanceBlamesInstance(args: seq<Option<Expr>>)
    ensures Validate(Some(StaticMethod), Some(SomeInstance), args) == Failure(Thrown(ArgumentInvalid, InstanceSlot))
    ensures SlotName(InstanceSlot) == Some("instance")
  {
  }

  /** The three invalid arguments of the tests: null, a property without a getter, and a
      string where an int is expected. */
  predicate InvalidArgument(bad: Option<Expr>, k: ErrorKind) {
    || (bad.None? && k == ArgumentNull)
    || (bad == Some(WriteOnly) && k == ArgumentInvalid)
    || (bad == Some(Abc) && k == ArgumentInvalid)
  }

  /** Replacing argument i of an otherwise valid call to Method<n> by an invalid one
      raises the expected exception naming `arg<i>`, with or without an explicit null
      instance. */
  lemma InvalidArgumentBlamesItsPosition(n: nat, i: nat, bad: Option<Expr>, k: ErrorKind)
    requires i < n && InvalidArgument(bad, k)
    ensures Validate(Some(NumberedMethod(n)), None, Valids(n)[i := bad]) == Failure(Thrown(k, ArgSlot(i)))
    ensures SlotName(ArgSlot(i)) == Some("arg" + NatToString(i))
  {
    var m := NumberedMethod(n);
    var args := Valids(n)[i := bad];
    assert m.params == IntParams(n);
    assert forall j :: 0 <= j < n ==> m.params[j].ty == Int32;
    assert FirstFault(m.params, args, i, k);
  }

  /** The names the tests check for the first five positions. */
  lemma ArgumentSlotNames()
    ensures SlotName(ArgSlot(0)) == Some("arg0") && SlotName(ArgSlot(1)) == Some("arg1")
    ensures SlotName(ArgSlot(2)) == Some("arg2") && SlotName(ArgSlot(3)) == Some("arg3")
    ensures SlotName(ArgSlot(4)) == Some("arg4")
  {
    assert NatToString(0) == "0" && "arg" + "0" == "arg0";
    assert NatToString(1) == "1" && "arg" + "1" == "arg1";
    assert NatToString(2) == "2" && "arg" + "2" == "arg2";
    assert NatToString(3) == "3" && "arg" + "3" == "arg3";
    assert NatToString(4) == "4" && "arg" + "4" == "arg4";
  }

  /** A wrong argument count blames `method`, even when every argument would also be
      invalid: the count is checked before the arguments. */
  lemma WrongCountBlamesMethod(n: nat, count: nat)
    requires count != n
    ensures Validate(Some(NumberedMethod(n)), None, seq(count, _ => Some(Abc))) == Failure(Thrown(ArgumentInvalid, MethodSlot))
  {
  }

  /** With the right count of valid arguments, Method<n> is accepted as written. */
  lemma ValidCallAccepted(n: nat)
    ensures Validate(Some(NumberedMethod(n)), None, Valids(n)).Success?
  {
    var m := NumberedMethod(n);
    assert forall j :: 0 <= j < n ==> m.params[j].ty == Int32;
  }
}

=== FILE: validator.dfy ===
/** Validation of an explicit (method, receiver, arguments) triple into a call node.
    One function stands for every `Expression.Call(...)` overload that takes a method:
    the positional ones, the array and sequence ones, with or without an explicit
    null instance; they differ only in how the receiver and arguments are passed. */
module Validator {
  import opened Results
  import opened Types
  import opened Expressions
  import opened Descriptors
  import opened Errors

  /** The first check an argument fails against its parameter: present, readable,
      then reference-assignable to the parameter type. */
  function ArgumentFault(p: Parameter, a: Option<Expr>): Option<ErrorKind> {
    if a.None? then Some(ArgumentNull)
    else if !CanRead(a.value) then Some(ArgumentInvalid)
    else if !ReferenceAssignable(p.ty, a.value.ty) then Some(ArgumentInvalid)
    else None
  }

  /** Argument i is the first one that fails, and it fails with kind k. */
  ghost predicate FirstFault(ps: seq<Parameter>, args: seq<Option<Expr>>, i: int, k: ErrorKind) {
    && |ps| == |args|
    && 0 <= i < |args|
    && ArgumentFault(ps[i], args[i]) == Some(k)
    && forall j :: 0 <= j < i ==> ArgumentFault(ps[j], args[j]).None?
  }

  /** Scans the arguments from position `from` for the first failing one. */
  function FindFault(ps: seq<Parameter>, args: seq<Option<Expr>>, from: nat): (r: Option<(nat, ErrorKind)>)
    requires |ps| == |args| && from <= |args|
    ensures r.None? <==> forall j :: from <= j < |args| ==> ArgumentFault(ps[j], args[j]).None?
    ensures r.Some? ==>
      && from <= r.value.0 < |args|
      && ArgumentFault(ps[r.value.0], args[r.value.0]) == Some(r.value.1)
      && forall j :: from <= j < r.value.0 ==> ArgumentFault(ps[j], args[j]).None?
    decreases |args| - from
  {
    if from == |args| then None
    else match ArgumentFault(ps[from], args[from])
      case Some(k) => Some((from, k))
      case None => FindFault(ps, args, from + 1)
  }

  /** The exception for a receiver that does not fit the method, if any. A static method
      blames `instance`; a missing or incompatible receiver of an instance method blames
      `method`. */
  function ReceiverFault(m: Method, receiver: Option<Expr>): Option<Thrown> {
    if m.isStatic then
      if receiver.Some? then Some(Thrown(ArgumentInvalid, InstanceSlot)) else None
    else if receiver.None? then Some(Thrown(ArgumentInvalid, MethodSlot))
    else if !InstanceCompatible(m.declaring, receiver.value.ty) then Some(Thrown(ArgumentInvalid, MethodSlot))
    else None
  }

  /** Every check passes: the reference definition of an acceptable call. */
  ghost predicate Acceptable(m: Method, receiver: Option<Expr>, args: seq<Option<Expr>>) {
    && !ContainsGenericParameters(m)
    && ReceiverFault(m, receiver).None?
    && |args| == |m.params|
    && forall i :: 0 <= i < |args| ==> ArgumentFault(m.params[i], args[i]).None?
  }

  /** The method check passes: present and closed. */
  predicate MethodPasses(callee: Option<Method>) {
    callee.Some? && !ContainsGenericParameters(callee.value)
  }

  /** The method and receiver checks pass. */
  predicate ReceiverPasses(callee: Option<Method>, receiver: Option<Expr>) {
    MethodPasses(callee) && ReceiverFault(callee.value, receiver).None?
  }

  function Present(args: seq<Option<Expr>>): (r: seq<Expr>)
    requires forall i :: 0 <= i < |args| ==> args[i].Some?
    ensures |r| == |args|
    ensures forall i :: 0 <= i < |args| ==> args[i] == Some(r[i])
  {
    seq(|args|, i requires 0 <= i < |args| => args[i].value)
  }

  /** Builds the call node, checking the method, then the receiver, then the argument
      count, then each argument in order; the first failing check decides the exception. */
  function Validate(callee: Option<Method>, receiver: Option<Expr>, args: seq<Option<Expr>>): (r: Result<CallNode, Thrown>)
    // the method comes first
    ensures callee.None? ==> r == Failure(Thrown(ArgumentNull, MethodSlot))
    ensures callee.Some? && ContainsGenericParameters(callee.value) ==>
              r == Failure(Thrown(ArgumentInvalid, MethodSlot))
    // then the receiver, whatever the arguments
    ensures MethodPasses(callee) && callee.value.isStatic && receiver.Some? ==>
              r == Failure(Thrown(ArgumentInvalid, InstanceSlot))
    ensures MethodPasses(callee) && !callee.value.isStatic && receiver.None? ==>
              r == Failure(Thrown(ArgumentInvalid, MethodSlot))
    ensures MethodPasses(callee) && !callee.value.isStatic && receiver.Some? &&
            !InstanceCompatible(callee.value.declaring, receiver.value.ty) ==>
              r == Failure(Thrown(ArgumentInvalid, MethodSlot))
    // then the count, whatever the arguments are
    ensures ReceiverPasses(callee, receiver) && |args| != |callee.value.params| ==>
              r == Failure(Thrown(ArgumentInvalid, MethodSlot))
    // then the first failing argument
    ensures forall i, k :: ReceiverPasses(callee, receiver) && FirstFault(callee.value.params, args, i, k) ==>
              r == Failure(Thrown(k, ArgSlot(i)))
    // and success exactly when nothing fails
    ensures r.Success? <==> callee.Some? && Acceptable(callee.value, receiver, args)
    ensures r.Success? ==>
              && r.value.callee == callee.value
              && r.value.receiver == receiver
              && |r.value.args| == |args|
              && forall i :: 0 <= i < |args| ==> args[i] == Some(r.value.args[i])
  {
    if callee.None? then Failure(Thrown(ArgumentNull, MethodSlot))
    else
      var m := callee.value;
      if ContainsGenericParameters(m) then Failure(Thrown(ArgumentInvalid, MethodSlot))
      else if ReceiverFault(m, receiver).Some? then Failure(ReceiverFault(m, receiver).value)
      else if |args| != |m.params| then Failure(Thrown(ArgumentInvalid, MethodSlot))
      else match FindFault(m.params, args, 0)
        case Some(f) => Failure(Thrown(f.1, ArgSlot(f.0)))
        case None => Success(CallNode(receiver, m, Present(args)))
  }
}

=== FILE: values.dfy ===
/** Runtime values and the heap that persists across invocations of a compiled
    lambda: class instances, arrays of any rank, lists and boxes. */
module Values {
  import opened Types

  const MinInt32: int := -0x8000_0000
  const MaxInt32: int := 0x7FFF_FFFF

  predicate InInt32(x: int) {
    MinInt32 <= x <= MaxInt32
  }

  /** `x + 1` truncated to 32-bit two's complement (C# arithmetic is unchecked by default). */
  function Increment(x: int): (r: int)
    ensures InInt32(r)
    ensures MinInt32 <= x < MaxInt32 ==> r == x + 1
    ensures x == MaxInt32 ==> r == MinInt32
  {
    (x + 1 - MinInt32) % 0x1_0000_0000 + MinInt32
  }

  type Address = nat

  datatype Value =
    | IntValue(i: int)
    | StringValue(s: string)
    | MutableValue(x: int)     // the struct Mutable, whose only state is the private int x
    | Reference(address: Address)
    | Null
    | TypeValue(t: Ty)
    | Unit                     // the result of a void method

  datatype Obj =
    | Instance(cls: Ty, fields: map<string, Value>)
    | ArrayObject(cls: Ty, elements: map<seq<int>, Value>)   // keyed by in-range index vectors
    | ListObject(cls: Ty, items: seq<Value>)
    | Box(content: Value)

  type Heap = map<Address, Obj>

  /** The dynamic type `GetType` reports; a value type is boxed first. */
  function RuntimeType(v: Value, h: Heap): Ty {
    match v
    case IntValue(_) => Int32
    case StringValue(_) => StringType
    case MutableValue(_) => Struct("Mutable")
    case TypeValue(_) => TypeType
    case Unit => VoidType
    case Null => ObjectType
    case Reference(a) =>
      if a !in h then ObjectType
      else match h[a]
        case Box(c) => BoxedType(c)
        case Instance(c, _) => c
        case ArrayObject(c, _) => c
        case ListObject(c, _) => c
  }

  function BoxedType(v: Value): Ty {
    match v
    case IntValue(_) => Int32
    case MutableValue(_) => Struct("Mutable")
    case _ => ObjectType
  }
}

=== FILE: writeback_cases.dfy ===
/** The write-back behaviour the call tests pin, one shape at a time: a compiled lambda
    `p => <receiver>.Foo()` is invoked repeatedly on the same object, and the results
    show whether `Foo` mutated the stored struct or a copy of it. */
module WriteBackCases {
  import opened Results
  import opened Types
  import opened Values
  import opened Expressions
  import opened Descriptors
  import opened Validator
  import opened Store
  import opened Executor
  import opened Fixtures

  /** Constant index operands. */
  function Indices(ix: seq<int>): (es: seq<Expr>)
    ensures |es| == |ix|
  {
    seq(|ix|, i requires 0 <= i < |ix| => Const(IntValue(ix[i]), Int32))
  }

  function IntValues(ix: seq<int>): (vs: seq<Value>)
    ensures |vs| == |ix|
  {
    seq(|ix|, i requires 0 <= i < |ix| => IntValue(ix[i]))
  }

  lemma {:induction false} EvalIndices(ix: seq<int>, st: State)
    ensures EvalAll(Indices(ix), st) == Success(IntValues(ix))
    ensures AsInts(IntValues(ix)) == Some(ix)
    decreases |ix|
  {
    if |ix| > 0 {
      EvalIndices(ix[1..], st);
      assert Indices(ix)[1..] == Indices(ix[1..]);
      assert IntValues(ix) == [IntValue(ix[0])] + IntValues(ix[1..]);
    }
    var r := AsInts(IntValues(ix));
    assert forall i :: 0 <= i < |ix| ==> IntValues(ix)[i].IntValue?;
    assert r.Some?;
    assert forall i :: 0 <= i < |ix| ==> r.value[i] == ix[i];
    assert r.value == ix;
  }

  /** `p => <receiver>.Foo()`, as validation builds it. */
  function FooLambda(receiver: Expr): (f: Lambda)
    ensures CallsFooOn(f, receiver) && Compiled(f)
  {
    Lambda(["p"], Evaluate(CallNode(Some(receiver), Foo, [])))
  }

  lemma FooCallIsValid(receiver: Expr)
    requires receiver.ty == MutableType
    ensures Validate(Some(Foo), Some(receiver), []) == Success(FooLambda(receiver).body.call)
  {
  }

  const WrapperType: Ty := Class("Wrapper")
  const ListType: Ty := Class("List")

  /** A Wrapper<Mutable> whose Field holds `x` and whose ReadOnlyField holds `y`. */
  function Wrapper(x: int, y: int): Obj {
    Instance(WrapperType, map["Field" := MutableValue(x), "ReadOnlyField" := MutableValue(y)])
  }

  // ---- addressable receivers: the counter persists ----

  /** An element of an array of any rank, reached through either factory, is storage:
      invocation i reports the element's value plus i. */
  lemma ArrayElementReceiverPersists(form: IndexForm, ix: seq<int>, h: Heap, a: Address, x: int, count: nat)
    requires a in h && h[a].ArrayObject? && ix in h[a].elements && h[a].elements[ix] == MutableValue(x)
    ensures var p := Param("p", ArrayOf(MutableType, |ix|));
            Repeat(FooLambda(ArrayIndex(p, Indices(ix), form, MutableType)), [Reference(a)], h, count)
              == Success(Successors(x, count))
  {
    var e := ArrayIndex(Param("p", ArrayOf(MutableType, |ix|)), Indices(ix), form, MutableType);
    var env := Bind(["p"], [Reference(a)]);
    var loc := ArrayElement(a, ix);
    assert Stable(e, env, h, loc) by {
      forall y ensures Locate(e, Write(loc, MutableValue(y), State(env, h))) == Success(loc) {
        EvalIndices(ix, Write(loc, MutableValue(y), State(env, h)));
      }
    }
    RepeatPersistent(FooLambda(e), e, [Reference(a)], h, loc, x, count);
  }

  /** A writable field of a class instance is storage. */
  lemma FieldReceiverPersists(h: Heap, a: Address, x: int, y: int, count: nat)
    requires a in h && h[a] == Wrapper(x, y)
    ensures var e := FieldAccess(Param("p", WrapperType), "Field", false, MutableType);
            Repeat(FooLambda(e), [Reference(a)], h, count) == Success(Successors(x, count))
  {
    var e := FieldAccess(Param("p", WrapperType), "Field", false, MutableType);
    var loc := ObjectField(a, "Field");
    RepeatPersistent(FooLambda(e), e, [Reference(a)], h, loc, x, count);
  }

  /** The value inside a box is storage: unboxing yields a reference, not a copy. */
  lemma UnboxedReceiverPersists(h: Heap, a: Address, x: int, count: nat)
    requires a in h && h[a] == Box(MutableValue(x))
    ensures var e := Unbox(Param("p", ObjectType), MutableType);
            Repeat(FooLambda(e), [Reference(a)], h, count) == Success(Successors(x, count))
  {
    var e := Unbox(Param("p", ObjectType), MutableType);
    RepeatPersistent(FooLambda(e), e, [Reference(a)], h, Unboxed(a), x, count);
  }

  // ---- receivers that are copies: every call sees the original ----

  /** A property getter returns a copy of the field. */
  lemma PropertyReceiverIsCopied(h: Heap, a: Address, x: int, y: int, count: nat)
    requires a in h && h[a] == Wrapper(x, y)
    ensures var e := Property(Some(Param("p", WrapperType)), WrapperType, "Property", FieldBacked("Field"), [], MutableType);
            Repeat(FooLambda(e), [Reference(a)], h, count) == Success(Repeated(IntValue(x), count))
  {
    var e := Property(Some(Param("p", WrapperType)), WrapperType, "Property", FieldBacked("Field"), [], MutableType);
    RepeatCopied(FooLambda(e), e, [Reference(a)], h, x, count);
  }

  /** A List indexer returns a copy of the element. */
  lemma ListIndexerReceiverIsCopied(h: Heap, a: Address, x: int, count: nat)
    requires a in h && h[a] == ListObject(ListType, [MutableValue(x)])
    ensures var e := Property(Some(Param("p", ListType)), ListType, "Item", ListElement, [Const(IntValue(0), Int32)], MutableType);
            Repeat(FooLambda(e), [Reference(a)], h, count) == Success(Repeated(IntValue(x), count))
  {
    var e := Property(Some(Param("p", ListType)), ListType, "Item", ListElement, [Const(IntValue(0), Int32)], MutableType);
    RepeatCopied(FooLambda(e), e, [Reference(a)], h, x, count);
  }

  /** A readonly field is read into a copy before the call. */
  lemma ReadonlyFieldReceiverIsCopied(h: Heap, a: Address, x: int, y: int, count: nat)
    requires a in h && h[a] == Wrapper(x, y)
    ensures var e := FieldAccess(Param("p", WrapperType), "ReadOnlyField", true, MutableType);
            Repeat(FooLambda(e), [Reference(a)], h, count) == Success(Repeated(IntValue(y), count))
  {
    var e := FieldAccess(Param("p", WrapperType), "ReadOnlyField", true, MutableType);
    RepeatCopied(FooLambda(e), e, [Reference(a)], h, y, count);
  }

  // ---- the values the tests assert ----

  /** A default Mutable in a one-element array, in a 1x1 array, through ArrayIndex and
      through ArrayAccess, counts 0, 1, 2. */
  lemma ArrayCases(form: IndexForm, rank: nat)
    requires rank == 1 || rank == 2
    ensures var ix := if rank == 1 then [0] else [0, 0];
            var h := map[0 := ArrayObject(ArrayOf(MutableType, rank), map[ix := MutableValue(0)])];
            var p := Param("p", ArrayOf(MutableType, rank));
            Repeat(FooLambda(ArrayIndex(p, Indices(ix), form, MutableType)), [Reference(0)], h, 3)
              == Success([IntValue(0), IntValue(1), IntValue(2)])
  {
    var ix := if rank == 1 then [0] else [0, 0];
    ArrayElementReceiverPersists(form, ix, map[0 := ArrayObject(ArrayOf(MutableType, rank), map[ix := MutableValue(0)])], 0, 0, 3);
    SuccessorsCount(0, 3);
    assert Successors(0, 3) == [IntValue(0), IntValue(1), IntValue(2)];
  }

  /** A boxed default Mutable counts 0, 1, 2, 3. */
  lemma UnboxCase()
    ensures Repeat(FooLambda(Unbox(Param("p", ObjectType), MutableType)), [Reference(0)], map[0 := Box(MutableValue(0))], 4)
              == Success([IntValue(0), IntValue(1), IntValue(2), IntValue(3)])
  {
    UnboxedReceiverPersists(map[0 := Box(MutableValue(0))], 0, 0, 4);
    SuccessorsCount(0, 4);
    assert Successors(0, 4) == [IntValue(0), IntValue(1), IntValue(2), IntValue(3)];
  }

  /** Through the field of a new Wrapper: 0, 1, 2. */
  lemma FieldCase()
    ensures Repeat(FooLambda(FieldAccess(Param("p", WrapperType), "Field", false, MutableType)),
                   [Reference(0)], map[0 := Wrapper(0, 0)], 3) == Success([IntValue(0), IntValue(1), IntValue(2)])
  {
    FieldReceiverPersists(map[0 := Wrapper(0, 0)], 0, 0, 0, 3);
    SuccessorsCount(0, 3);
    assert Successors(0, 3) == [IntValue(0), IntValue(1), IntValue(2)];
  }

  /** Through the property of a new Wrapper: 0, 0. */
  lemma PropertyCase()
    ensures Repeat(FooLambda(Property(Some(Param("p", WrapperType)), WrapperType, "Property", FieldBacked("Field"), [], MutableType)),
                   [Reference(0)], map[0 := Wrapper(0, 0)], 2) == Success([IntValue(0), IntValue(0)])
  {
    PropertyReceiverIsCopied(map[0 := Wrapper(0, 0)], 0, 0, 0, 2);
    assert Repeated(IntValue(0), 2) == [IntValue(0), IntValue(0)];
  }

  /** Through the readonly field of a new Wrapper: 0, 0, 0. */
  lemma ReadonlyFieldCase()
    ensures Repeat(FooLambda(FieldAccess(Param("p", WrapperType), "ReadOnlyField", true, MutableType)),
                   [Reference(0)], map[0 := Wrapper(0, 0)], 3) == Success([IntValue(0), IntValue(0), IntValue(0)])
  {
    ReadonlyFieldReceiverIsCopied(map[0 := Wrapper(0, 0)], 0, 0, 0, 3);
    assert Repeated(IntValue(0), 3) == [IntValue(0), IntValue(0), IntValue(0)];
  }

  /** Through the indexer of a one-element List: 0, 0. */
  lemma ListCase()
    ensures Repeat(FooLambda(Property(Some(Param("p", ListType)), ListType, "Item", ListElement, [Const(IntValue(0), Int32)], MutableType)),
                   [Reference(0)], map[0 := ListObject(ListType, [MutableValue(0)])], 2) == Success([IntValue(0), IntValue(0)])
  {
    ListIndexerReceiverIsCopied(map[0 := ListObject(ListType, [MutableValue(0)])], 0, 0, 2);
    assert Repeated(IntValue(0), 2) == [IntValue(0), IntValue(0)];
  }

  // ---- a constant receiver ----

  /** `() => Wrapper<Mutable>.Zero.GetType()`: the literal is boxed and reports int. */
  lemma ConstFieldCase(h: Heap)
    ensures var e := LiteralField(WrapperType, "Zero", IntValue(0), Int32);
            && Validate(Some(GetType), Some(e), []) == Success(CallNode(Some(e), GetType, []))
            && Invoke(Lambda([], Evaluate(CallNode(Some(e), GetType, []))), [], h) == Success((TypeValue(Int32), h))
  {
  }

  // ---- by-ref arguments ----

  lemma EvalSingle(a: Expr, st: State)
    requires Eval(a, st).Success?
    ensures EvalAll([a], st) == Success([Eval(a, st).value])
  {
    assert [a][1..] == [];
    assert [Eval(a, st).value] + [] == [Eval(a, st).value];
  }

  /** `p.X` and `p[0]` on a Mutable parameter. */
  function MutableAccess(indexer: bool): Expr {
    var p := Param("p", MutableType);
    if indexer then Property(Some(p), MutableType, "Item", StructState, [Const(IntValue(0), Int32)], Int32)
    else Property(Some(p), MutableType, "X", StructState, [], Int32)
  }

  /** `p => { Methods.ByRef(<access>); return <access>; }`. */
  function ByRefLambda(indexer: bool): (f: Lambda)
    ensures Compiled(f)
  {
    Lambda(["p"], ThenRead(CallNode(None, ByRef, [MutableAccess(indexer)]), MutableAccess(indexer)))
  }

  /** A property or indexer passed by reference is read, incremented by the callee and
      written back through its setter into the parameter, so the block reads `x + 1`. */
  lemma ByRefWritesBackThroughSetter(indexer: bool, x: int, h: Heap)
    ensures Validate(Some(ByRef), None, [Some(MutableAccess(indexer))]) == Success(ByRefLambda(indexer).body.call)
    ensures Invoke(ByRefLambda(indexer), [MutableValue(x)], h) == Success((IntValue(Increment(x)), h))
  {
    var e := MutableAccess(indexer);
    assert FindFault(ByRef.params, [Some(e)], 0).None?;
    assert Present([Some(e)]) == [e];
    var st := State(map["p" := MutableValue(x)], h);
    assert Bind(["p"], [MutableValue(x)]) == st.env;
    var ix := if indexer then [IntValue(0)] else [];
    if indexer {
      EvalSingle(Const(IntValue(0), Int32), st);
    }
    assert EvalAll(e.indices, st) == Success(ix);
    assert Eval(e, st) == Success(IntValue(x));
    EvalSingle(e, st);
    assert [e][1..] == [] && ByRef.params[1..] == [];
    var w := ThroughSetter(StructState, Local("p"), MutableValue(x), ix);
    assert Plan(e, st) == Success(w);
    assert [w] + [] == [w];
    assert PlanAll(ByRef.params, [e], st) == Success([ThroughSetter(StructState, Local("p"), MutableValue(x), ix)]);
    var st2 := State(map["p" := MutableValue(Increment(x))], h);
    assert st.env["p" := MutableValue(Increment(x))] == st2.env;
    assert Set(StructState, Local("p"), MutableValue(x), ix, IntValue(Increment(x)), st) == Success(st2);
    assert [w][1..] == [] && [IntValue(Increment(x))][1..] == [];
    assert WriteBackAll([ThroughSetter(StructState, Local("p"), MutableValue(x), ix)], [IntValue(Increment(x))], st)
             == Success(st2);
    assert Execute(ByRefLambda(indexer).body.call, st) == Success((Unit, st2));
    if indexer {
      EvalSingle(Const(IntValue(0), Int32), st2);
    }
    assert EvalAll(e.indices, st2) == Success(ix);
    assert Eval(e, st2) == Success(IntValue(Increment(x)));
  }

  /** `Methods.ByRef(ref a[0])` on an int array: the element is storage, so the callee's
      increment lands in the array. */
  lemma ByRefArrayElementWritesBack(form: IndexForm, h: Heap, a: Address, x: int)
    requires a in h && h[a].ArrayObject? && [0] in h[a].elements && h[a].elements[[0]] == IntValue(x)
    ensures var e := ArrayIndex(Param("p", ArrayOf(Int32, 1)), [Const(IntValue(0), Int32)], form, Int32);
            Validate(Some(ByRef), None, [Some(e)]) == Success(CallNode(None, ByRef, [e]))
    ensures var e := ArrayIndex(Param("p", ArrayOf(Int32, 1)), [Const(IntValue(0), Int32)], form, Int32);
            var r := Execute(CallNode(None, ByRef, [e]), State(map["p" := Reference(a)], h));
            r.Success? && Read(ArrayElement(a, [0]), r.value.1) == Success(IntValue(Increment(x)))
  {
    var e := ArrayIndex(Param("p", ArrayOf(Int32, 1)), [Const(IntValue(0), Int32)], form, Int32);
    assert FindFault(ByRef.params, [Some(e)], 0).None?;
    assert Present([Some(e)]) == [e];
    var n := CallNode(None, ByRef, [e]);
    var st := State(map["p" := Reference(a)], h);
    var loc := ArrayElement(a, [0]);
    EvalSingle(Const(IntValue(0), Int32), st);
    assert AsInts([IntValue(0)]).Some?;
    var ints := AsInts([IntValue(0)]).value;
    assert |ints| == 1 && ints[0] == 0;
    assert ints == [0];
    assert Eval(e, st) == Success(IntValue(x));
    assert Locate(e, st) == Success(loc);
    EvalSingle(e, st);
    assert [e][1..] == [] && ByRef.params[1..] == [];
    assert [Direct(loc)] + [] == [Direct(loc)];
    assert PlanAll(ByRef.params, [e], st) == Success([Direct(loc)]);
    var v := IntValue(Increment(x));
    assert [IntValue(x)][0 := v] == [v];
    assert Apply(PreIncrementFirstArgument, None, [IntValue(x)], h) == Success(Outcome(Unit, None, [v]));
    assert CalleeOutcome(n, st) == Success(Outcome(Unit, None, [v]));
    assert [Direct(loc)][1..] == [] && [v][1..] == [];
    assert WriteBackAll([Direct(loc)], [v], st) == Success(Write(loc, v, st));
    assert Execute(n, st).Success?;
    ExecuteWritesBack(n, st, 0, loc);
  }

  /** `Methods.ByRef(ref list[0])` on a List<int>: the indexer's setter stores the callee's
      increment into the list. */
  lemma ByRefListElementWritesBack(h: Heap, a: Address, x: int, rest: seq<Value>)
    requires a in h && h[a] == ListObject(Class("List<int>"), [IntValue(x)] + rest)
    ensures var e := Property(Some(Param("p", Class("List<int>"))), Class("List<int>"), "Item", ListElement,
                              [Const(IntValue(0), Int32)], Int32);
            var r := Execute(CallNode(None, ByRef, [e]), State(map["p" := Reference(a)], h));
            r.Success? && Read(ListItem(a, 0), r.value.1) == Success(IntValue(Increment(x)))
  {
    var t := Class("List<int>");
    var e := Property(Some(Param("p", t)), t, "Item", ListElement, [Const(IntValue(0), Int32)], Int32);
    var n := CallNode(None, ByRef, [e]);
    var st := State(map["p" := Reference(a)], h);
    var loc := ListItem(a, 0);
    EvalSingle(Const(IntValue(0), Int32), st);
    assert Eval(e, st) == Success(IntValue(x));
    EvalSingle(e, st);
    var w := ThroughSetter(ListElement, Local("p"), Reference(a), [IntValue(0)]);
    assert Plan(e, st) == Success(w);
    assert WritesTo(w) == Some(loc);
    assert [e][1..] == [] && ByRef.params[1..] == [];
    assert [w] + [] == [w];
    assert PlanAll(ByRef.params, [e], st) == Success([w]);
    var v := IntValue(Increment(x));
    assert [IntValue(x)][0 := v] == [v];
    assert Apply(PreIncrementFirstArgument, None, [IntValue(x)], h) == Success(Outcome(Unit, None, [v]));
    assert CalleeOutcome(n, st) == Success(Outcome(Unit, None, [v]));
    assert [w][1..] == [] && [v][1..] == [];
    assert Set(ListElement, Local("p"), Reference(a), [IntValue(0)], v, st) == Success(Write(loc, v, st));
    assert WriteBackAll([w], [v], st) == Success(Write(loc, v, st));
    assert Execute(n, st).Success?;
    ExecuteWritesBack(n, st, 0, loc);
  }

  /** With X = 41 the block returns 42. */
  lemma ByRefCase(indexer: bool)
    ensures Invoke(ByRefLambda(indexer), [MutableValue(41)], map[]) == Success((IntValue(42), map[]))
  {
    ByRefWritesBackThroughSetter(indexer, 41, map[]);
  }

  /** The same property is a temporary when it is the receiver and is written back through
      its setter when it is a by-ref argument. */
  lemma PropertyCopiedAsReceiverWrittenBackAsArgument(e: Expr, st: State)
    requires e.Property?
    ensures Locate(e, st) == Success(Temporary)
    ensures Plan(e, st).Success? ==> Plan(e, st).value.ThroughSetter?
  {
  }
}
